=== FILE: README.md ===
# Running Robot: a Dafny model of the game core

This project models the core of a small OpenGL game in which a robot walks across a level on
its own. The model covers three parts:

- **The robot's per-frame state machine** (`RobotObject`). A live frame scans the solid roster
  for triggers, then moves along X, then moves along Y, then recomputes its facing. A rotator
  sets the heading, flames kill the robot and the finish stops it. Each axis move is tentative:
  a collision with the window or with a wall-like object undoes it and reverses that axis's
  direction. A dead frame only spins and shrinks the robot.
- **Hitbox placement** for the robot and the flame pool (`Geometry`, `RobotObject`,
  `FlamesObject`). Each hitbox is an axis-aligned box centred on the object's position, with a
  fixed fraction of its size. It is created on first use and updated in place afterwards.
- **The game controller's bookkeeping** (`GameController`). This covers:
  - the shared vertex buffer and each type's offset into it;
  - the list of observed keys;
  - the roster of object instances and its solid subset, rebuilt on every restart;
  - the key and mouse-button caches;
  - the restart test;
  - the order of the logic pass;
  - texture id numbering.

Everything is a pure function over immutable records, except seven methods. Four of them are
loops: filling the buffer, counting textures, numbering textures and assigning one entry's ids.
The other three put these together: configuring the buffer and keys, configuring the textures,
and constructing the controller. Reals
stand for the source's floats. Some of the code the core calls is not part of this model: the
collision tests, the trigonometric functions and the `configure_hitbox` of the other object
types. These are passed in as function-typed parameters (`RobotObject.Collaborators`, and a
`GameController.PlainPlacer` for the other types' hitboxes). Beyond what their signatures
say, nothing is assumed about them: a `PlainPlacer` sees everything a new object holds (its
type, position, size, rotation and the window resolution).

Modules: `Wrappers` (Option), `Geometry` (vectors, axes, hitbox records, centred boxes),
`GameObject` (object types, identities, roster entries, draw calls and the tiling of a buffer
range, input-cache records), `RobotObject`, `FlamesObject`, `GameController`.

Behaviour of the code worth knowing when reading the model:
- The dead robot's size drops by 0.03 per frame only while it is positive, and it is not
  clamped at zero. From a size ≥ 0 it stays above −0.03.
- A window collision only undoes a move inside the roster loop. With an empty roster the move
  stands even when the window collider reports a hit (`UnobstructedFirstFrame`).
- The facing is recomputed from arccos and arcsin of the direction, with the sign of the
  arcsin choosing the branch (`Facing`).
- After an undone move the hitbox stays where the tentative move put it (`AxisMove`).
- The frame that kills the robot still runs both axis moves (`DeathFrameStillMoves`).
- A hit by any structural object in the roster, or by the window, reverts the move. The window
  collision is OR-ed in before the roster loop (`Blocked`).

## Model

| member | source | states |
|---|---|---|
| Geometry.CenteredBox | src/objects/complex/RobotObject.py:156-157 | the box is `scale` times the size and its centre is the object's position |
| Geometry.PlaceHitbox | src/objects/complex/RobotObject.py:159-162 | with no hitbox a new "box" hitbox is created; an existing one keeps its identity (kind) and only its values are replaced |
| GameObject.TilesPartition | src/objects/complex/RobotObject.py:177-199 | draw calls laid end to end over `[lo, hi)` read only inside it, and each index is read by exactly one call |
| RobotObject.New | src/objects/complex/RobotObject.py:146-151 | a new robot has no hitbox, speed 0.6, heading (0, 1), and is alive |
| RobotObject.ConfigureHitbox | src/objects/complex/RobotObject.py:154-162 | the hitbox is 0.857 × size, centred on the position, created or updated in place; nothing else changes |
| RobotObject.TriggerScan | src/objects/complex/RobotObject.py:220-234 | the scan only changes direction, speed and `dead`; `dead` never becomes false and speed only becomes 0 |
| RobotObject.TriggerScanOutcome | src/objects/complex/RobotObject.py:220-234 | the first overlapping flames or finish (self skipped) decides: flames kill, finish sets speed 0, none leaves both alone; with no rotator before it the direction is unchanged |
| RobotObject.LastRotatorWins | src/objects/complex/RobotObject.py:225-228 | the last overlapping rotator before the scan ends sets the direction to (cos r, sin r) of its angle |
| RobotObject.Blocked | src/objects/complex/RobotObject.py:210-217 | the roster loop reverts exactly when the roster is non-empty and the window collides or some non-self Box/Container/ParedeSage/Gate collides |
| RobotObject.AxisMove | src/objects/complex/RobotObject.py:202-217 | unblocked: the axis advances by speed × direction; blocked: the position is restored and that axis's direction negated; the other axis is untouched; the hitbox stays at the tentative place |
| RobotObject.Shrink | src/objects/complex/RobotObject.py:243-244 | a size component drops by exactly 0.03 while positive, is left alone otherwise, and stays above −0.03 once above it |
| RobotObject.Logic | src/objects/complex/RobotObject.py:236-262 | a dead frame adds 0.2 to the rotation, shrinks the size and changes nothing else; every frame keeps the window resolution; a live frame takes `dead` and speed from the trigger scan, settles X with the X move before the Y move runs, the Y move (run on the state after the X move) sets the final position and direction, the hitbox ends at the Y move's tentative place, it keeps the size and sets the rotation from the final direction; a stopped robot does not move |
| RobotObject.FrameRoster | src/GameController.py:193-196 | an item is handed the full solid roster exactly when it has a hitbox (`GameObject.GetsRoster`, the rule the logic pass also uses), and nothing otherwise; so a non-empty roster implies a hitbox |
| RobotObject.DeathIsTerminal | src/objects/complex/RobotObject.py:241-246 | over any run of frames a dead robot stays dead, keeps position, direction, speed and hitbox, spins 0.2 per frame, and its size only decreases |
| RobotObject.SpeedNeverIncreases | src/objects/complex/RobotObject.py:236-255 | over any run speed stays 0.6 or 0 and never increases; once 0 the position never changes |
| RobotObject.RotatorSteersSameFrame | src/objects/complex/RobotObject.py:248-255 | triggers run before the moves: a rotator hit this frame sets the heading used by this frame's X and Y moves |
| RobotObject.DeathFrameStillMoves | src/objects/complex/RobotObject.py:229-255 | the frame in which flames kill the robot still moves it by speed × direction |
| RobotObject.UnobstructedFirstFrame | src/objects/complex/RobotObject.py:202-217 | a new robot at (0, 0) with an empty roster reaches (0, 0.6) after one frame, whatever the window collider says |
| RobotObject.LayoutStarts | src/objects/complex/RobotObject.py:77-137 | the generated rings start at 29, 39, 65 and 75, and the list has 85 vertices |
| RobotObject.GetVertices | src/objects/complex/RobotObject.py:39-143 | the list holds 85 vertices, all with z = 0; it takes no earlier contents, because the class list is reassigned first |
| RobotObject.Draw | src/objects/complex/RobotObject.py:177-199 | thirteen draw calls tile `[offset, offset + 85)` |
| RobotObject.DrawMatchesLayout | src/objects/complex/RobotObject.py:177-199 | the fans cover the literal table and each generated ring exactly, the strips tile the second literal table, and every vertex is drawn |
| FlamesObject.New | src/objects/complex/FlamesObject.py:49-52 | a new flame pool has no hitbox and `u_time` 0 |
| FlamesObject.ConfigureHitbox | src/objects/complex/FlamesObject.py:55-63 | the hitbox is 0.2 × size, centred on the position, created on the first call and updated in place later |
| FlamesObject.ConfigureHitboxIdempotent | src/objects/complex/FlamesObject.py:55-63 | placing the hitbox again from the same transform changes nothing |
| FlamesObject.Logic | src/objects/complex/FlamesObject.py:82-84 | `logic` changes nothing |
| FlamesObject.GetVertices | src/objects/complex/FlamesObject.py:26-46 | each call appends 128 vertices with z = 0 and keeps what the class list held |
| FlamesObject.SecondCallReturns256 | src/objects/complex/FlamesObject.py:34-46 | from an empty class list the first call returns 128 vertices and the second 256 |
| FlamesObject.Draw | src/objects/complex/FlamesObject.py:66-79 | one fan tiles `[offset, offset + 128)` and `u_time` grows by 0.0005 |
| FlamesObject.TimeAdvancesPerDraw | src/objects/complex/FlamesObject.py:73-75 | after n draws `u_time` has grown by 0.0005 × n and nothing else changed |
| GameController.Produce | src/GameController.py:70-71 | a resetting type returns its own list; an appending type returns the class list followed by exactly its batch |
| GameController.ProduceAll | src/GameController.py:68-71 | one result per scheme entry; a resetting type's entry is exactly its vertex list |
| GameController.ConfigureVertexesAndKeys | src/GameController.py:64-75 | the buffer is the entries' vertices concatenated in order; each offset is the vertex count before it, and the entry's vertices sit there; observed keys are R then each type's subscribed keys |
| GameController.ClassOffsetsLastWins | src/GameController.py:68-71 | a type's class offset is the offset of its last entry, and only types in the scheme have one |
| GameController.ClassOffsetOfUniqueType | src/GameController.py:70 | when every type appears once, each type's class offset is its entry's offset |
| GameController.AppendingTypeListedTwice | src/GameController.py:68-71 | an appending type with a 128-vertex batch (the flame pool's) listed twice contributes 128 and then 256 vertices |
| GameController.MakeInstance | src/GameController.py:88-95 | an instance takes its identity and type, the item's position, size and rotation, and the window resolution; a robot starts alive at speed 0.6 heading (0, 1), a flame pool at `u_time` 0; an item not declared solid has no hitbox; a declared-solid robot or flame pool gets the "box" hitbox centred on the position at 0.857 or 0.2 × size, and another type whatever its own placement gives |
| GameController.ConfigureObjects | src/GameController.py:78-98 | one group per scheme entry in order, one instance per item, numbered by position; instance (g, k) takes item (g, k)'s position, size and rotation, and has no hitbox unless that item is declared solid; every instance is exactly the one `MakeInstance` builds from its item, so a restart brings each robot back alive at speed 0.6 heading (0, 1) and each flame pool back to `u_time` 0 |
| GameController.FilterSolid | src/GameController.py:92-95 | keeps exactly the instances that have a hitbox, in order |
| GameController.SolidRoster | src/GameController.py:91-95 | the solid roster holds exactly the declared-solid items whose hitbox exists after placement, in scheme/item order |
| GameController.RosterView | src/GameController.py:196 | the roster handed to `logic` has one entry per solid instance, in the same order |
| GameController.LogicOrder | src/GameController.py:191-196 | groups are visited in reverse scheme order and items in order, each item once, and only items with a hitbox get the roster |
| GameController.OnKey | src/GameController.py:145-151 | an observed key's entry becomes the event's action, code and mods; other keys and unobserved events change nothing |
| GameController.LastKeyEventWins | src/GameController.py:150-151 | for an observed key the last event wins |
| GameController.UntouchedKey | src/GameController.py:150 | an unobserved key, or one with no event, keeps its entry or its absence |
| GameController.OnButton | src/GameController.py:154-159 | every button's entry becomes the event's action and mods; others are unchanged |
| GameController.LastButtonEventWins | src/GameController.py:159 | for each button the last event wins |
| GameController.RestartFollowsLastR | src/GameController.py:186-187 | restart fires iff R's last recorded action is non-zero; a missing entry counts as 0 and a frame without R events keeps the decision |
| GameController.ConfigureTextures | src/GameController.py:111-142 | each entry gets one id per declared texture, continuing from where the previous entries stopped; none are assigned when no type declares a texture |
| GameController.TextureIdsConsecutive | src/GameController.py:126-142 | read in scheme order, the ids are exactly 1, 2, …, n for n the total number of declared textures |
| GameController.Init | src/GameController.py:19-42 | construction fills the buffer, offsets, class offsets and observed keys, builds a fresh roster, numbers the textures per entry, and starts both caches empty |
| GameController.CheckRestart | src/GameController.py:185-187 | a restart rebuilds the roster and solid roster from the scheme alone and leaves the buffer, offsets, keys, caches and texture ids unchanged |
| GameController.RestartIdempotent | src/GameController.py:78-98 | restarting from a fresh roster, or restarting twice, gives the same controller |

## Left out

- GL, GLFW and PIL calls are not modelled. This covers buffer upload, `glDrawArrays`, shader
  uniform setters, window creation, event polling, buffer swap, texture parameters,
  `glGenTextures` and image decoding. These are I/O. Only the numbers given to them are
  modelled: offsets, counts and ids.
- `Hitbox.check_collision` and `hitbox_window_collider`: their code is not part of this model.
  Both are function parameters, with no symmetry or corner convention assumed.
- `GameObject._generate_model_matrix` and `_configure_gl_variables`: their code is not part of
  this model. They do matrix work on floats.
- Vertex coordinates: the literal tables and the cos/sin-generated points are given by a
  `planar` function. Only counts, layout and z = 0 are modelled.
- The trigonometric functions (cos and sin of the rotator angle, arccos and arcsin of the
  direction) are function parameters. The conversion between degrees and radians is folded
  into them.
- IEEE float rounding is not modelled: `real` stands for positions, sizes, speed and steps.
- RobotObject.Logic: requires a hitbox whenever the roster is non-empty. The controller
  guarantees this (`FrameRoster`). In the source, a robot without a hitbox facing a trigger
  object would raise on `None.check_collision`.
- The Python roster holds live references, so an object's changes earlier in the logic pass are
  visible later in the same pass. The model hands the robot a snapshot (`RosterView`). The
  `logic` of the Box, Container, ParedeSage, Gate, Rotator and Finish types is not part of this
  model, so `LogicOrder` gives the order and the arguments of the calls but does not run them.
- The draw pass (group by group in reverse order, selecting each group's shader once) issues
  only GL calls. Its per-object draw ranges are modelled (`RobotObject.Draw`,
  `FlamesObject.Draw`), but its loop is not.
- Item `props` without a `"hitbox"` key raises a KeyError in the source. This configuration
  error is not modelled: `props` is either absent or a boolean.
- `shader_textures_ids` is a class-level list that the source appends to. The model gives each
  scheme entry its own id list. How the lists are shared across classes depends on a base class
  that is not part of this model.
- The frame loop itself (the window-close test, clearing, swapping) is not modelled. Of `start`,
  only the restart test and the logic-pass order are modelled.
- The Flames shader's `u_resolution` uniform (1200 × 600) is not modelled. It is a constant
  handed to GL.
- GameController.CheckRestart: the model assumes that each new object copies the item's
  `position` and `size`. The base class constructor that stores them is not part of this model.
  If it kept the scheme's lists instead, the robot's moves and shrinking would write through into
  the scheme, and a restart would rebuild the robot where it last stood. `CheckRestart` and
  `RestartIdempotent` rest on this assumption. Two more assumptions come from the same
  constructor and from class-level state:
  - A new object starts with no hitbox (`RobotObject.New`, `FlamesObject.New`, and the plain
    body of an item not declared solid). The logic pass relies on this when it hands the roster
    only to objects that have one.
  - The class-level vertex lists start empty (`Entries` starts from no class lists). That holds
    for the first controller built in a process. A second controller would find the flame
    pool's earlier vertices still in its class-level list, so its buffer would be longer.
- GameController.LogicOrder: the contract states the count, the range and the strict order of
  the calls. That each item is visited follows from these three facts, but is not stated as a
  separate clause.

=== FILE: flames_object.dfy ===
/**
 * The flame pool: a static lethal zone. Hitbox placement, a no-op `logic`, a vertex producer
 * that appends to the class-level list, and a draw that advances the shader's `u_time`.
 */
module FlamesObject {
  import opened Wrappers
  import opened Geometry
  import opened GameObject

  /** Vertices of the flame outline (`num_vertices`). */
  const NumVertices: nat := 128
  /** Fraction of the size covered by the hitbox. */
  const HitboxScale: real := 0.2
  /** `u_time` advance per draw. */
  const TimeStep: real := 0.0005

  datatype Flames = Flames(
    position: Vec2,
    size: Vec2,
    rotate: real,
    resolution: Resolution,
    hitbox: Option<Hitbox>,
    uTime: real)

  /** A new flame pool: no hitbox yet and `u_time` at 0. */
  function New(position: Vec2, size: Vec2, rotate: real, resolution: Resolution): (f: Flames)
    ensures f.position == position && f.size == size && f.rotate == rotate && f.resolution == resolution
    ensures f.hitbox.None? && f.uTime == 0.0
  {
    Flames(position, size, rotate, resolution, None, 0.0)
  }

  /** `configure_hitbox`: a box 0.2 times the size, centred on the position, created or updated. */
  function ConfigureHitbox(f: Flames): (f': Flames)
    ensures f'.hitbox.Some?
    ensures f'.hitbox.value.rect.x + f'.hitbox.value.rect.w / 2.0 == f.position.x
    ensures f'.hitbox.value.rect.y + f'.hitbox.value.rect.h / 2.0 == f.position.y
    ensures f'.hitbox.value.rect.w == HitboxScale * f.size.x
    ensures f'.hitbox.value.rect.h == HitboxScale * f.size.y
    ensures f.hitbox.None? ==> f'.hitbox.value.kind == BoxKind
    ensures f.hitbox.Some? ==> f'.hitbox.value.kind == f.hitbox.value.kind
    ensures f' == f.(hitbox := f'.hitbox)
  {
    f.(hitbox := PlaceHitbox(f.hitbox, CenteredBox(f.position, f.size, HitboxScale)))
  }

  /** Placing the hitbox twice from the same transform is the same as placing it once. */
  lemma ConfigureHitboxIdempotent(f: Flames)
    ensures ConfigureHitbox(ConfigureHitbox(f)) == ConfigureHitbox(f)
  {
  }

  /** `logic`: the flame pool ignores keys, buttons and roster and changes nothing. */
  function Logic(f: Flames, keys: map<int, KeyState>, buttons: map<int, ButtonState>, roster: seq<Solid>): (f': Flames)
    ensures f' == f
  {
    f
  }

  /**
   * `get_vertices`: appends 128 outline vertices, all with z = 0, to the class-level list and
   * returns the whole list; what was there before is kept. `planar(i)` is the outline's `i`-th point.
   */
  function GetVertices(classList: seq<Vertex>, planar: nat -> (real, real)): (vs: seq<Vertex>)
    ensures |vs| == |classList| + NumVertices
    ensures vs[..|classList|] == classList
    ensures forall i :: |classList| <= i < |vs| ==> vs[i].z == 0.0
  {
    classList + seq(NumVertices, i requires 0 <= i => Vertex(planar(i).0, planar(i).1, 0.0))
  }

  /** Because the list is never reset, a second call from an empty class list returns 256 vertices. */
  lemma SecondCallReturns256(planar: nat -> (real, real))
    ensures |GetVertices([], planar)| == 128
    ensures |GetVertices(GetVertices([], planar), planar)| == 256
  {
  }

  /** `draw`: one fan over the class's 128 vertices, and `u_time` advances by 0.0005. */
  function Draw(f: Flames, offset: int): (result: (Flames, seq<DrawCall>))
    ensures result.0 == f.(uTime := f.uTime + TimeStep)
    ensures |result.1| == 1 && result.1[0].mode == TriangleFan
    ensures Tiles(result.1, offset, offset + NumVertices)
  {
    (f.(uTime := f.uTime + TimeStep), [DrawCall(TriangleFan, offset, NumVertices)])
  }

  /** `n` successive draws. */
  function DrawTimes(f: Flames, offset: int, n: nat): Flames
    decreases n
  {
    if n == 0 then f else DrawTimes(Draw(f, offset).0, offset, n - 1)
  }

  /** After `n` draws `u_time` is 0.0005 n past where it started, and nothing else changed. */
  lemma {:induction false} TimeAdvancesPerDraw(f: Flames, offset: int, n: nat)
    ensures DrawTimes(f, offset, n).uTime == f.uTime + TimeStep * n as real
    ensures DrawTimes(f, offset, n) == f.(uTime := DrawTimes(f, offset, n).uTime)
    decreases n
  {
    if n > 0 {
      TimeAdvancesPerDraw(Draw(f, offset).0, offset, n - 1);
    }
  }
}

=== FILE: game_controller.dfy ===
/**
 * The game controller's bookkeeping: the shared vertex buffer and its per-type offsets, the
 * observed keys, the roster rebuilt on every restart with its solid subset, the key and button
 * caches, the restart condition, the order of the logic pass and texture id numbering.
 */
module GameController {
  import opened Wrappers
  import opened Geometry
  import opened GameObject
  import RobotObject
  import FlamesObject

  /** GLFW's key code for R, always observed. */
  const KeyR: int := 82

  // ---------------------------------------------------------------------------------------------
  // Scene scheme

  /**
   * How a type's `get_vertices` treats the class-level vertex list: the robot rebuilds it from
   * scratch every call (`Resetting`), the flame pool appends to it (`Appending`).
   */
  datatype Producer = Resetting(vertices: seq<Vertex>) | Appending(batch: seq<Vertex>)

  /** A scheme entry's type: its variant, vertex producer, `subscribe_keys` (if declared) and textures. */
  datatype TypeDesc = TypeDesc(
    kind: ObjectType,
    producer: Producer,
    subscribeKeys: Option<seq<int>>,
    textures: seq<string>)

  /** One declared item: initial transform and its `props` record (`None` when absent). */
  datatype ItemDecl = ItemDecl(position: Vec2, size: Vec2, rotate: real, props: Option<bool>)

  datatype Entry = Entry(typ: TypeDesc, items: seq<ItemDecl>)

  /** Flattens a sequence of sequences, in order. */
  function Concat<T>(ss: seq<seq<T>>): seq<T>
    decreases |ss|
  {
    if ss == [] then [] else Concat(ss[..|ss| - 1]) + ss[|ss| - 1]
  }

  /** Element `j` of `ss` sits in `Concat(ss)` right after the elements of `ss[..j]`. */
  lemma {:induction false} ConcatSlice<T>(ss: seq<seq<T>>, j: nat)
    requires j < |ss|
    ensures |Concat(ss[..j])| + |ss[j]| <= |Concat(ss)|
    ensures Concat(ss)[|Concat(ss[..j])|..|Concat(ss[..j])| + |ss[j]|] == ss[j]
    decreases |ss|
  {
    var init := ss[..|ss| - 1];
    if j == |ss| - 1 {
      assert init == ss[..j];
    } else {
      assert init[..j] == ss[..j] && init[j] == ss[j];
      ConcatSlice(init, j);
      var a := |Concat(ss[..j])|;
      assert Concat(ss)[a..a + |ss[j]|] == Concat(init)[a..a + |ss[j]|];
    }
  }

  // ---------------------------------------------------------------------------------------------
  // Vertex buffer, offsets and observed keys (`__configure_vertexes_and_keys`)

  /** One `get_vertices` call for a type whose class-level list currently holds `classList`. */
  function Produce(p: Producer, classList: seq<Vertex>): (vs: seq<Vertex>)
    ensures p.Resetting? ==> vs == p.vertices
    ensures p.Appending? ==> |vs| == |classList| + |p.batch| && vs[..|classList|] == classList
    ensures p.Appending? ==> vs[|classList|..] == p.batch
  {
    match p
    case Resetting(v) => v
    case Appending(b) => classList + b
  }

  function ClassList(cv: map<ObjectType, seq<Vertex>>, k: ObjectType): seq<Vertex> {
    if k in cv then cv[k] else []
  }

  /**
   * What each entry's `get_vertices` call returns, in scheme order, given the class-level lists
   * `cv` before the first call. A resetting type always yields its own vertex list.
   */
  function ProduceAll(scheme: seq<Entry>, cv: map<ObjectType, seq<Vertex>>): (outs: seq<seq<Vertex>>)
    ensures |outs| == |scheme|
    ensures forall i {:trigger outs[i]} :: 0 <= i < |scheme| && scheme[i].typ.producer.Resetting? ==>
              outs[i] == scheme[i].typ.producer.vertices
    decreases |scheme|
  {
    if scheme == [] then []
    else
      var t := scheme[0].typ;
      var out := Produce(t.producer, ClassList(cv, t.kind));
      assert forall i :: 1 <= i < |scheme| ==> scheme[i] == scheme[1..][i - 1];
      [out] + ProduceAll(scheme[1..], cv[t.kind := out])
  }

  /** Each entry's contribution to the shared buffer, starting from empty class-level lists. */
  function Entries(scheme: seq<Entry>): (outs: seq<seq<Vertex>>)
    ensures |outs| == |scheme|
  {
    ProduceAll(scheme, map[])
  }

  /** The `subscribe_keys` of the scheme's types that declare them, in scheme order. */
  function SubscribedKeys(scheme: seq<Entry>): seq<int>
    decreases |scheme|
  {
    if scheme == [] then []
    else
      var last := scheme[|scheme| - 1].typ.subscribeKeys;
      SubscribedKeys(scheme[..|scheme| - 1]) + (if last.Some? then last.value else [])
  }

  /** No entry after `j` and before `n` has entry `j`'s type. */
  ghost predicate LastOfKind(scheme: seq<Entry>, j: nat, n: nat)
    requires j < n <= |scheme|
  {
    forall j' :: j < j' < n ==> scheme[j'].typ.kind != scheme[j].typ.kind
  }

  /**
   * `classOffset` holds, for each type seen among the first `n` entries, the offset of its last
   * entry among them, and nothing else.
   */
  ghost predicate ClassOffsetsUpTo(scheme: seq<Entry>, offsets: seq<nat>, classOffset: map<ObjectType, nat>, n: nat)
    requires n <= |scheme| && n <= |offsets|
  {
    && (forall j {:trigger offsets[j]} :: 0 <= j < n && LastOfKind(scheme, j, n) ==>
          scheme[j].typ.kind in classOffset && classOffset[scheme[j].typ.kind] == offsets[j])
    && (forall k :: k in classOffset ==> exists j :: 0 <= j < n && scheme[j].typ.kind == k)
  }

  /**
   * What `__configure_vertexes_and_keys` leaves: the buffer is the entries' vertices in scheme
   * order, each offset is the vertex count of the entries before it, a type's class offset is
   * that of its last entry, and the observed keys are R followed by the subscribed keys.
   */
  ghost predicate BufferConfigured(scheme: seq<Entry>, vertices: seq<Vertex>, offsets: seq<nat>,
                                   classOffset: map<ObjectType, nat>, observed: seq<int>) {
    && vertices == Concat(Entries(scheme))
    && |offsets| == |scheme|
    && (forall i {:trigger offsets[i]} :: 0 <= i < |scheme| ==> offsets[i] == |Concat(Entries(scheme)[..i])|)
    && ClassOffsetsUpTo(scheme, offsets, classOffset, |scheme|)
    && observed == [KeyR] + SubscribedKeys(scheme)
  }

  /**
   * Fills the shared buffer and the observed keys. Each entry's vertices sit in the buffer at
   * its offset, which is the total vertex count of the entries before it; a type's class offset
   * is that of its last entry; observed keys are R followed by the subscribed keys.
   */
  method ConfigureVertexesAndKeys(scheme: seq<Entry>)
    returns (vertices: seq<Vertex>, offsets: seq<nat>, classOffset: map<ObjectType, nat>, observed: seq<int>)
    ensures BufferConfigured(scheme, vertices, offsets, classOffset, observed)
    ensures forall i {:trigger offsets[i]} :: 0 <= i < |offsets| && i < |scheme| ==>
              offsets[i] + |Entries(scheme)[i]| <= |vertices| &&
              vertices[offsets[i]..offsets[i] + |Entries(scheme)[i]|] == Entries(scheme)[i]
  {
    vertices, offsets, classOffset, observed := FillBuffer(scheme);
    EntriesAtOffsets(Entries(scheme), offsets);
  }

  /** The loop of `__configure_vertexes_and_keys`. */
  method FillBuffer(scheme: seq<Entry>)
    returns (vertices: seq<Vertex>, offsets: seq<nat>, classOffset: map<ObjectType, nat>, observed: seq<int>)
    ensures vertices == Concat(Entries(scheme))
    ensures |offsets| == |scheme|
    ensures forall i {:trigger offsets[i]} :: 0 <= i < |scheme| ==> offsets[i] == |Concat(Entries(scheme)[..i])|
    ensures ClassOffsetsUpTo(scheme, offsets, classOffset, |scheme|)
    ensures observed == [KeyR] + SubscribedKeys(scheme)
  {
    ghost var done: seq<seq<Vertex>> := [];
    var cv: map<ObjectType, seq<Vertex>> := map[];
    vertices, offsets, classOffset, observed := [], [], map[], [KeyR];
    var i := 0;
    assert scheme[0..] == scheme && scheme[..0] == [];
    while i < |scheme|
      invariant 0 <= i <= |scheme|
      invariant FillInv(scheme, i, done, cv, vertices, offsets, classOffset)
      invariant observed == [KeyR] + SubscribedKeys(scheme[..i])
    {
      var t := scheme[i].typ;
      var out := Produce(t.producer, ClassList(cv, t.kind));
      var observed' := if t.subscribeKeys.Some? then observed + t.subscribeKeys.value else observed;
      FillStep(scheme, i, done, cv, vertices, offsets, classOffset);
      ObservedStep(scheme, i, observed);
      offsets := offsets + [|vertices|];
      classOffset := classOffset[t.kind := |vertices|];
      cv := cv[t.kind := out];
      vertices := vertices + out;
      done := done + [out];
      observed := observed';
      i := i + 1;
    }
    FillDone(scheme, done, cv, vertices, offsets, classOffset, observed);
  }

  /** The loop invariant of `FillBuffer` after `i` entries, `done` being their contributions. */
  ghost predicate FillInv(scheme: seq<Entry>, i: nat, done: seq<seq<Vertex>>, cv: map<ObjectType, seq<Vertex>>,
                          vertices: seq<Vertex>, offsets: seq<nat>, classOffset: map<ObjectType, nat>)
    requires i <= |scheme|
  {
    && |done| == i && Entries(scheme) == done + ProduceAll(scheme[i..], cv)
    && vertices == Concat(done)
    && |offsets| == i
    && (forall j {:trigger offsets[j]} :: 0 <= j < i ==> offsets[j] == |Concat(done[..j])|)
    && classOffset == ClassOffsets(scheme[..i], offsets)
  }

  lemma FillStep(scheme: seq<Entry>, i: nat, done: seq<seq<Vertex>>, cv: map<ObjectType, seq<Vertex>>,
                 vertices: seq<Vertex>, offsets: seq<nat>, classOffset: map<ObjectType, nat>)
    requires i < |scheme|
    requires FillInv(scheme, i, done, cv, vertices, offsets, classOffset)
    ensures var t := scheme[i].typ;
            var out := Produce(t.producer, ClassList(cv, t.kind));
            FillInv(scheme, i + 1, done + [out], cv[t.kind := out], vertices + out, offsets + [|vertices|],
                    classOffset[t.kind := |vertices|])
  {
    var t := scheme[i].typ;
    var out := Produce(t.producer, ClassList(cv, t.kind));
    EntriesStep(scheme, i, done, cv);
    OffsetsStep(done, out, vertices, offsets);
    ClassOffsetsStep(scheme, offsets, i, |vertices|);
  }

  lemma EntriesStep(scheme: seq<Entry>, i: nat, done: seq<seq<Vertex>>, cv: map<ObjectType, seq<Vertex>>)
    requires i < |scheme| && Entries(scheme) == done + ProduceAll(scheme[i..], cv)
    ensures var t := scheme[i].typ;
            var out := Produce(t.producer, ClassList(cv, t.kind));
            Entries(scheme) == (done + [out]) + ProduceAll(scheme[i + 1..], cv[t.kind := out])
  {
    var t := scheme[i].typ;
    var out := Produce(t.producer, ClassList(cv, t.kind));
    var rest := ProduceAll(scheme[i + 1..], cv[t.kind := out]);
    ProduceStep(scheme, i, cv);
    assert done + ([out] + rest) == (done + [out]) + rest;
  }

  lemma ObservedStep(scheme: seq<Entry>, i: nat, observed: seq<int>)
    requires i < |scheme| && observed == [KeyR] + SubscribedKeys(scheme[..i])
    ensures (if scheme[i].typ.subscribeKeys.Some? then observed + scheme[i].typ.subscribeKeys.value else observed) ==
            [KeyR] + SubscribedKeys(scheme[..i + 1])
  {
    SubscribedStep(scheme, i);
    if scheme[i].typ.subscribeKeys.Some? {
      var ks := scheme[i].typ.subscribeKeys.value;
      assert ([KeyR] + SubscribedKeys(scheme[..i])) + ks == [KeyR] + (SubscribedKeys(scheme[..i]) + ks);
    } else {
      assert SubscribedKeys(scheme[..i]) + [] == SubscribedKeys(scheme[..i]);
    }
  }

  lemma OffsetsStep(done: seq<seq<Vertex>>, out: seq<Vertex>, vertices: seq<Vertex>, offsets: seq<nat>)
    requires vertices == Concat(done) && |offsets| == |done|
    requires forall j {:trigger offsets[j]} :: 0 <= j < |done| ==> offsets[j] == |Concat(done[..j])|
    ensures vertices + out == Concat(done + [out])
    ensures forall j {:trigger (offsets + [|vertices|])[j]} :: 0 <= j < |done| + 1 ==> (offsets + [|vertices|])[j] == |Concat((done + [out])[..j])|
  {
    ConcatSnoc(done, out);
  }

  lemma FillDone(scheme: seq<Entry>, done: seq<seq<Vertex>>, cv: map<ObjectType, seq<Vertex>>,
                 vertices: seq<Vertex>, offsets: seq<nat>, classOffset: map<ObjectType, nat>, observed: seq<int>)
    requires FillInv(scheme, |scheme|, done, cv, vertices, offsets, classOffset)
    requires observed == [KeyR] + SubscribedKeys(scheme[..|scheme|])
    ensures vertices == Concat(Entries(scheme))
    ensures |offsets| == |scheme|
    ensures forall i {:trigger offsets[i]} :: 0 <= i < |scheme| ==> offsets[i] == |Concat(Entries(scheme)[..i])|
    ensures ClassOffsetsUpTo(scheme, offsets, classOffset, |scheme|)
    ensures observed == [KeyR] + SubscribedKeys(scheme)
  {
    assert Entries(scheme) == done;
    assert scheme[..|scheme|] == scheme;
    ClassOffsetsLastWins(scheme, offsets);
  }

  /** With prefix-sum offsets, each piece of a concatenation sits at its offset. */
  lemma EntriesAtOffsets<T>(ss: seq<seq<T>>, offsets: seq<nat>)
    requires |offsets| == |ss|
    requires forall i {:trigger offsets[i]} :: 0 <= i < |ss| ==> offsets[i] == |Concat(ss[..i])|
    ensures forall i {:trigger offsets[i]} :: 0 <= i < |ss| ==>
              offsets[i] + |ss[i]| <= |Concat(ss)| && Concat(ss)[offsets[i]..offsets[i] + |ss[i]|] == ss[i]
  {
    forall i | 0 <= i < |ss|
      ensures offsets[i] + |ss[i]| <= |Concat(ss)| && Concat(ss)[offsets[i]..offsets[i] + |ss[i]|] == ss[i]
    {
      ConcatSlice(ss, i);
    }
  }

  lemma ProduceStep(scheme: seq<Entry>, i: nat, cv: map<ObjectType, seq<Vertex>>)
    requires i < |scheme|
    ensures ProduceAll(scheme[i..], cv) ==
              [Produce(scheme[i].typ.producer, ClassList(cv, scheme[i].typ.kind))] +
              ProduceAll(scheme[i + 1..], cv[scheme[i].typ.kind := Produce(scheme[i].typ.producer, ClassList(cv, scheme[i].typ.kind))])
  {
    assert scheme[i..][1..] == scheme[i + 1..];
  }

  lemma SubscribedStep(scheme: seq<Entry>, i: nat)
    requires i < |scheme|
    ensures SubscribedKeys(scheme[..i + 1]) ==
              SubscribedKeys(scheme[..i]) + (if scheme[i].typ.subscribeKeys.Some? then scheme[i].typ.subscribeKeys.value else [])
  {
    assert scheme[..i + 1][..i] == scheme[..i];
  }

  /** The class offsets after entries `entries` were configured at `offsets`: each entry overwrites its type's. */
  function ClassOffsets(entries: seq<Entry>, offsets: seq<nat>): map<ObjectType, nat>
    requires |offsets| == |entries|
    decreases |entries|
  {
    if entries == [] then map[]
    else
      var n := |entries| - 1;
      ClassOffsets(entries[..n], offsets[..n])[entries[n].typ.kind := offsets[n]]
  }

  lemma ClassOffsetsStep(scheme: seq<Entry>, offsets: seq<nat>, i: nat, off: nat)
    requires i < |scheme| && |offsets| == i
    ensures ClassOffsets(scheme[..i + 1], offsets + [off]) ==
              ClassOffsets(scheme[..i], offsets)[scheme[i].typ.kind := off]
  {
    assert scheme[..i + 1][..i] == scheme[..i];
    assert (offsets + [off])[..i] == offsets;
  }

  /** Last entry wins: a type's class offset is the offset of its last entry in the scheme. */
  lemma {:induction false} ClassOffsetsLastWins(scheme: seq<Entry>, offsets: seq<nat>)
    requires |offsets| == |scheme|
    ensures ClassOffsetsUpTo(scheme, offsets, ClassOffsets(scheme, offsets), |scheme|)
  {
    ClassOffsetsOfLast(scheme, offsets);
    ClassOffsetsOnlySeen(scheme, offsets);
  }

  lemma {:induction false} ClassOffsetsOfLast(scheme: seq<Entry>, offsets: seq<nat>)
    requires |offsets| == |scheme|
    ensures forall j :: 0 <= j < |scheme| && LastOfKind(scheme, j, |scheme|) ==>
              scheme[j].typ.kind in ClassOffsets(scheme, offsets) &&
              ClassOffsets(scheme, offsets)[scheme[j].typ.kind] == offsets[j]
    decreases |scheme|
  {
    if scheme != [] {
      var n := |scheme| - 1;
      var init := scheme[..n];
      ClassOffsetsOfLast(init, offsets[..n]);
      forall j | 0 <= j < n && LastOfKind(scheme, j, |scheme|)
        ensures scheme[j].typ.kind in ClassOffsets(scheme, offsets) &&
                ClassOffsets(scheme, offsets)[scheme[j].typ.kind] == offsets[j]
      {
        assert LastOfKind(init, j, n);
      }
    }
  }

  lemma {:induction false} ClassOffsetsOnlySeen(scheme: seq<Entry>, offsets: seq<nat>)
    requires |offsets| == |scheme|
    ensures forall k :: k in ClassOffsets(scheme, offsets) ==> exists j :: 0 <= j < |scheme| && scheme[j].typ.kind == k
    decreases |scheme|
  {
    if scheme != [] {
      var n := |scheme| - 1;
      var init := scheme[..n];
      ClassOffsetsOnlySeen(init, offsets[..n]);
      forall k | k in ClassOffsets(scheme, offsets)
        ensures exists j :: 0 <= j < |scheme| && scheme[j].typ.kind == k
      {
        if k != scheme[n].typ.kind {
          assert k in ClassOffsets(init, offsets[..n]);
          var j :| 0 <= j < n && init[j].typ.kind == k;
          assert scheme[j].typ.kind == k;
        }
      }
    }
  }

  /** When every type appears once, each type's class offset is its entry's offset. */
  lemma ClassOffsetOfUniqueType(scheme: seq<Entry>, offsets: seq<nat>, classOffset: map<ObjectType, nat>, i: nat)
    requires |offsets| == |scheme| && i < |scheme|
    requires ClassOffsetsUpTo(scheme, offsets, classOffset, |scheme|)
    requires forall a, b :: 0 <= a < b < |scheme| ==> scheme[a].typ.kind != scheme[b].typ.kind
    ensures scheme[i].typ.kind in classOffset && classOffset[scheme[i].typ.kind] == offsets[i]
  {
    var mine := offsets[i];
    assert LastOfKind(scheme, i, |scheme|);
  }

  /**
   * A flame pool listed in two entries: its second `get_vertices` call returns the first batch
   * again followed by a second one, so that entry's region holds 256 vertices.
   */
  lemma AppendingTypeListedTwice(t: TypeDesc, items1: seq<ItemDecl>, items2: seq<ItemDecl>)
    requires t.producer.Appending? && |t.producer.batch| == FlamesObject.NumVertices
    ensures |Entries([Entry(t, items1), Entry(t, items2)])[0]| == 128
    ensures |Entries([Entry(t, items1), Entry(t, items2)])[1]| == 256
  {
    var s := [Entry(t, items1), Entry(t, items2)];
    assert s[1..] == [Entry(t, items2)];
    assert s[1..][1..] == [];
    var b := t.producer.batch;
    assert ProduceAll(s, map[]) == [b] + ProduceAll(s[1..], map[t.kind := b]);
    assert ProduceAll(s[1..], map[t.kind := b]) == [b + b] + ProduceAll(s[1..][1..], map[t.kind := b + b]);
  }

  // ---------------------------------------------------------------------------------------------
  // Roster (`__configure_objects`)

  /** A live instance's per-variant state. Variants other than Robot and Flames keep only the common fields. */
  datatype Body =
    | RobotBody(robot: RobotObject.Robot)
    | FlamesBody(flames: FlamesObject.Flames)
    | PlainBody(position: Vec2, size: Vec2, rotate: real, resolution: Resolution, hitbox: Option<Hitbox>)

  datatype Instance = Instance(id: InstanceId, kind: ObjectType, body: Body) {
    /** The instance's hitbox, whatever its variant. */
    function CurrentHitbox(): Option<Hitbox> {
      match body
      case RobotBody(r) => r.hitbox
      case FlamesBody(f) => f.hitbox
      case PlainBody(_, _, _, _, h) => h
    }

    function Position(): Vec2 {
      match body
      case RobotBody(r) => r.position
      case FlamesBody(f) => f.position
      case PlainBody(p, _, _, _, _) => p
    }

    function Size(): Vec2 {
      match body
      case RobotBody(r) => r.size
      case FlamesBody(f) => f.size
      case PlainBody(_, sz, _, _, _) => sz
    }

    function Rotate(): real {
      match body
      case RobotBody(r) => r.rotate
      case FlamesBody(f) => f.rotate
      case PlainBody(_, _, rot, _, _) => rot
    }
  }

  datatype Group = Group(typ: TypeDesc, items: seq<Instance>)

  /**
   * `configure_hitbox` of a variant other than Robot and Flames, as a function of everything the
   * new object holds: its type, position, size, rotation and the window resolution. It may leave
   * the hitbox absent.
   */
  type PlainPlacer = (ObjectType, Vec2, Vec2, real, Resolution) -> Option<Hitbox>

  /** An item is declared solid when its props ask for a hitbox; an item without props is not solid. */
  predicate DeclaredSolid(d: ItemDecl) {
    d.props.Some? && d.props.value
  }

  /**
   * Builds one instance; a declared-solid item gets `configure_hitbox` called once. Variants
   * other than Robot and Flames place their hitbox with `plainHitbox`, which may leave it absent.
   */
  function MakeInstance(id: InstanceId, typ: TypeDesc, d: ItemDecl, res: Resolution,
                        plainHitbox: PlainPlacer): (inst: Instance)
    ensures inst.id == id && inst.kind == typ.kind
    ensures inst.Position() == d.position && inst.Size() == d.size && inst.Rotate() == d.rotate
    ensures !DeclaredSolid(d) ==> inst.CurrentHitbox().None?
    ensures DeclaredSolid(d) && (typ.kind == RobotType || typ.kind == FlamesType) ==> inst.CurrentHitbox().Some?
    ensures typ.kind == RobotType ==>
              && inst.body.RobotBody?
              && inst.body.robot.resolution == res && !inst.body.robot.dead
              && inst.body.robot.speed == RobotObject.InitialSpeed && inst.body.robot.dir == Vec2(0.0, 1.0)
              && (DeclaredSolid(d) ==> inst.CurrentHitbox().value == Hitbox(BoxKind, CenteredBox(d.position, d.size, RobotObject.HitboxScale)))
    ensures typ.kind == FlamesType ==>
              && inst.body.FlamesBody?
              && inst.body.flames.resolution == res && inst.body.flames.uTime == 0.0
              && (DeclaredSolid(d) ==> inst.CurrentHitbox().value == Hitbox(BoxKind, CenteredBox(d.position, d.size, FlamesObject.HitboxScale)))
    ensures typ.kind != RobotType && typ.kind != FlamesType ==>
              && inst.body.PlainBody? && inst.body.resolution == res
              && (DeclaredSolid(d) ==> inst.CurrentHitbox() == plainHitbox(typ.kind, d.position, d.size, d.rotate, res))
  {
    var solid := DeclaredSolid(d);
    match typ.kind
    case RobotType =>
      var r := RobotObject.New(d.position, d.size, d.rotate, res);
      Instance(id, typ.kind, RobotBody(if solid then RobotObject.ConfigureHitbox(r) else r))
    case FlamesType =>
      var f := FlamesObject.New(d.position, d.size, d.rotate, res);
      Instance(id, typ.kind, FlamesBody(if solid then FlamesObject.ConfigureHitbox(f) else f))
    case _ =>
      Instance(id, typ.kind,
               PlainBody(d.position, d.size, d.rotate, res, if solid then plainHitbox(typ.kind, d.position, d.size, d.rotate, res) else None))
  }

  /** One group per scheme entry, in order, with one instance per declared item. */
  function ConfigureObjects(scheme: seq<Entry>, res: Resolution,
                            plainHitbox: PlainPlacer): (groups: seq<Group>)
    ensures |groups| == |scheme|
    ensures forall g :: 0 <= g < |scheme| ==>
              groups[g].typ == scheme[g].typ && |groups[g].items| == |scheme[g].items|
    ensures forall g, k :: 0 <= g < |scheme| && 0 <= k < |scheme[g].items| ==>
              groups[g].items[k].id == InstanceId(g, k) && groups[g].items[k].kind == scheme[g].typ.kind
    ensures forall g, k :: 0 <= g < |scheme| && 0 <= k < |scheme[g].items| ==>
              && groups[g].items[k].Position() == scheme[g].items[k].position
              && groups[g].items[k].Size() == scheme[g].items[k].size
              && groups[g].items[k].Rotate() == scheme[g].items[k].rotate
              && (!DeclaredSolid(scheme[g].items[k]) ==> groups[g].items[k].CurrentHitbox().None?)
    ensures forall g, k :: 0 <= g < |scheme| && 0 <= k < |scheme[g].items| ==>
              groups[g].items[k] == MakeInstance(InstanceId(g, k), scheme[g].typ, scheme[g].items[k], res, plainHitbox)
  {
    seq(|scheme|, g requires 0 <= g < |scheme| =>
      Group(scheme[g].typ,
            seq(|scheme[g].items|, k requires 0 <= k < |scheme[g].items| =>
              MakeInstance(InstanceId(g, k), scheme[g].typ, scheme[g].items[k], res, plainHitbox))))
  }

  /** Instances in strict scheme/item order. */
  ghost predicate InOrder(xs: seq<Instance>) {
    forall p, q :: 0 <= p < q < |xs| ==> IdBefore(xs[p].id, xs[q].id)
  }

  /** Every instance of every group, groups in order. */
  function AllItems(groups: seq<Group>): (xs: seq<Instance>)
    decreases |groups|
  {
    if groups == [] then [] else AllItems(groups[..|groups| - 1]) + groups[|groups| - 1].items
  }

  /** The instances of a group list built by `ConfigureObjects` are numbered by position. */
  ghost predicate Numbered(groups: seq<Group>) {
    forall g, k :: 0 <= g < |groups| && 0 <= k < |groups[g].items| ==> groups[g].items[k].id == InstanceId(g, k)
  }

  /** An instance is listed by `AllItems` exactly when some group holds it. */
  lemma {:induction false} AllItemsMembers(groups: seq<Group>)
    ensures forall x :: x in AllItems(groups) <==>
              exists g, k :: 0 <= g < |groups| && 0 <= k < |groups[g].items| && groups[g].items[k] == x
    decreases |groups|
  {
    if groups != [] {
      var n := |groups| - 1;
      var init := groups[..n];
      AllItemsMembers(init);
      var a := AllItems(init);
      var last := groups[n].items;
      assert AllItems(groups) == a + last;
      forall x
        ensures x in AllItems(groups) <==>
                exists g, k :: 0 <= g < |groups| && 0 <= k < |groups[g].items| && groups[g].items[k] == x
      {
        if x in a {
          var g, k :| 0 <= g < |init| && 0 <= k < |init[g].items| && init[g].items[k] == x;
          assert groups[g].items[k] == x;
        }
        if exists g, k :: 0 <= g < |groups| && 0 <= k < |groups[g].items| && groups[g].items[k] == x {
          var g, k :| 0 <= g < |groups| && 0 <= k < |groups[g].items| && groups[g].items[k] == x;
          if g < n {
            assert init[g].items[k] == x;
          } else {
            assert last[k] == x;
          }
        }
      }
    }
  }

  /** Numbered groups list their instances in strict id order, and membership is by position. */
  lemma {:induction false} AllItemsInOrder(groups: seq<Group>)
    requires Numbered(groups)
    ensures InOrder(AllItems(groups))
    ensures forall p :: 0 <= p < |AllItems(groups)| ==> AllItems(groups)[p].id.group < |groups|
    ensures forall x :: x in AllItems(groups) <==>
              exists g, k :: 0 <= g < |groups| && 0 <= k < |groups[g].items| && groups[g].items[k] == x
    decreases |groups|
  {
    AllItemsMembers(groups);
    if groups != [] {
      var n := |groups| - 1;
      var init := groups[..n];
      AllItemsInOrder(init);
      var a: seq<Instance> := AllItems(init);
      var last: seq<Instance> := groups[n].items;
      assert AllItems(groups) == a + last;
      forall p: int, q: int | 0 <= p < q < |a + last|
        ensures IdBefore((a + last)[p].id, (a + last)[q].id)
      {
        if q >= |a| && p < |a| {
          assert (a + last)[q] == last[q - |a|];
        } else if p >= |a| {
          assert (a + last)[q] == last[q - |a|] && (a + last)[p] == last[p - |a|];
        }
      }
    }
  }

  /** The instances that have a hitbox, in order. */
  function FilterSolid(items: seq<Instance>): (r: seq<Instance>)
    ensures forall x :: x in r <==> x in items && x.CurrentHitbox().Some?
    ensures forall p :: 0 <= p < |r| ==> exists q :: 0 <= q < |items| && items[q] == r[p]
    ensures InOrder(items) ==> InOrder(r)
    decreases |items|
  {
    if items == [] then []
    else
      var init := items[..|items| - 1];
      var last := items[|items| - 1];
      var r := FilterSolid(init);
      assert forall x :: x in init ==> x in items;
      if last.CurrentHitbox().Some? then
        assert InOrder(items) ==> forall p :: 0 <= p < |r| ==> IdBefore(r[p].id, last.id);
        r + [last]
      else r
  }

  /** The solid roster: every instance, in scheme/item order, that has a hitbox. */
  function SolidsOf(groups: seq<Group>): seq<Instance> {
    FilterSolid(AllItems(groups))
  }

  /**
   * The solid roster built on (re)start holds exactly the instances of items declared solid whose
   * hitbox exists after `configure_hitbox`, in scheme/item order.
   */
  lemma SolidRoster(scheme: seq<Entry>, res: Resolution,
                    plainHitbox: PlainPlacer, x: Instance)
    ensures InOrder(SolidsOf(ConfigureObjects(scheme, res, plainHitbox)))
    ensures x in SolidsOf(ConfigureObjects(scheme, res, plainHitbox)) <==>
              exists g, k :: 0 <= g < |scheme| && 0 <= k < |scheme[g].items| &&
                x == MakeInstance(InstanceId(g, k), scheme[g].typ, scheme[g].items[k], res, plainHitbox) &&
                DeclaredSolid(scheme[g].items[k]) && x.CurrentHitbox().Some?
  {
    var groups := ConfigureObjects(scheme, res, plainHitbox);
    AllItemsInOrder(groups);
  }

  /** What the robot reads of a solid instance. */
  function AsSolid(inst: Instance): (s: Solid)
    requires inst.CurrentHitbox().Some?
    ensures s.id == inst.id && s.kind == inst.kind && s.hitbox == inst.CurrentHitbox().value && s.rotate == inst.Rotate()
  {
    Solid(inst.id, inst.kind, inst.CurrentHitbox().value, inst.Rotate())
  }

  /** The roster handed to `logic`: one entry per solid instance, same order. */
  function RosterView(solids: seq<Instance>): (roster: seq<Solid>)
    requires forall x :: x in solids ==> x.CurrentHitbox().Some?
    ensures |roster| == |solids|
    ensures forall i :: 0 <= i < |solids| ==> roster[i] == AsSolid(solids[i])
  {
    seq(|solids|, i requires 0 <= i < |solids| => AsSolid(solids[i]))
  }

  // ---------------------------------------------------------------------------------------------
  // The logic pass (`start`)

  /** One `item.logic(...)` call: which item, and whether it is handed the solid roster. */
  datatype LogicCall = LogicCall(group: nat, index: nat, withRoster: bool)

  /** Later groups first; within a group, items in order. */
  predicate Precedes(a: LogicCall, b: LogicCall) {
    a.group > b.group || (a.group == b.group && a.index < b.index)
  }

  function ItemCount(groups: seq<Group>): nat
    decreases |groups|
  {
    if groups == [] then 0 else ItemCount(groups[..|groups| - 1]) + |groups[|groups| - 1].items|
  }

  /**
   * The logic pass: groups in reverse scheme order, items in order, each item once; an item with
   * a hitbox is handed the solid roster, one without is handed none.
   */
  function LogicOrder(groups: seq<Group>): (calls: seq<LogicCall>)
    ensures |calls| == ItemCount(groups)
    ensures forall p :: 0 <= p < |calls| ==>
              && calls[p].group < |groups|
              && calls[p].index < |groups[calls[p].group].items|
              && (calls[p].withRoster <==> GetsRoster(groups[calls[p].group].items[calls[p].index].CurrentHitbox()))
    ensures forall p, q :: 0 <= p < q < |calls| ==> Precedes(calls[p], calls[q])
    decreases |groups|
  {
    if groups == [] then []
    else
      var g := |groups| - 1;
      var items := groups[g].items;
      var head := seq(|items|, k requires 0 <= k < |items| => LogicCall(g, k, GetsRoster(items[k].CurrentHitbox())));
      var tail := LogicOrder(groups[..g]);
      assert forall p :: 0 <= p < |tail| ==> groups[..g][tail[p].group] == groups[tail[p].group];
      head + tail
  }

  // ---------------------------------------------------------------------------------------------
  // Input caches and restart

  datatype KeyEvent = KeyEvent(key: int, scancode: int, action: int, mods: int)
  datatype ButtonEvent = ButtonEvent(button: int, action: int, mods: int)

  /** `__key_event_handler`: record an observed key's latest event; ignore other keys. */
  function OnKey(observed: seq<int>, keys: map<int, KeyState>, e: KeyEvent): (r: map<int, KeyState>)
    ensures e.key in observed ==> e.key in r && r[e.key] == KeyState(e.action, e.scancode, e.mods)
    ensures e.key !in observed ==> r == keys
    ensures forall k :: k != e.key ==> (k in r <==> k in keys) && (k in keys ==> r[k] == keys[k])
  {
    if e.key in observed then keys[e.key := KeyState(e.action, e.scancode, e.mods)] else keys
  }

  /** The key cache after a series of events, oldest first. */
  function OnKeys(observed: seq<int>, keys: map<int, KeyState>, events: seq<KeyEvent>): map<int, KeyState>
    decreases |events|
  {
    if events == [] then keys else OnKey(observed, OnKeys(observed, keys, events[..|events| - 1]), events[|events| - 1])
  }

  /** For an observed key, the last event for it wins. */
  lemma {:induction false} LastKeyEventWins(observed: seq<int>, keys: map<int, KeyState>, events: seq<KeyEvent>, j: nat)
    requires j < |events| && events[j].key in observed
    requires forall j' :: j < j' < |events| ==> events[j'].key != events[j].key
    ensures events[j].key in OnKeys(observed, keys, events)
    ensures OnKeys(observed, keys, events)[events[j].key] == KeyState(events[j].action, events[j].scancode, events[j].mods)
    decreases |events|
  {
    if j < |events| - 1 {
      LastKeyEventWins(observed, keys, events[..|events| - 1], j);
    }
  }

  /** A key that is not observed, or that has no event, keeps its cached entry (or stays absent). */
  lemma {:induction false} UntouchedKey(observed: seq<int>, keys: map<int, KeyState>, events: seq<KeyEvent>, k: int)
    requires k !in observed || forall j :: 0 <= j < |events| ==> events[j].key != k
    ensures k in OnKeys(observed, keys, events) <==> k in keys
    ensures k in keys ==> OnKeys(observed, keys, events)[k] == keys[k]
    decreases |events|
  {
    if events != [] {
      UntouchedKey(observed, keys, events[..|events| - 1], k);
    }
  }

  /** `__mouse_event_handler`: record every button's latest event. */
  function OnButton(buttons: map<int, ButtonState>, e: ButtonEvent): (r: map<int, ButtonState>)
    ensures e.button in r && r[e.button] == ButtonState(e.action, e.mods)
    ensures forall b :: b != e.button ==> (b in r <==> b in buttons) && (b in buttons ==> r[b] == buttons[b])
  {
    buttons[e.button := ButtonState(e.action, e.mods)]
  }

  function OnButtons(buttons: map<int, ButtonState>, events: seq<ButtonEvent>): map<int, ButtonState>
    decreases |events|
  {
    if events == [] then buttons else OnButton(OnButtons(buttons, events[..|events| - 1]), events[|events| - 1])
  }

  /** For every button, the last event for it wins. */
  lemma {:induction false} LastButtonEventWins(buttons: map<int, ButtonState>, events: seq<ButtonEvent>, j: nat)
    requires j < |events|
    requires forall j' :: j < j' < |events| ==> events[j'].button != events[j].button
    ensures events[j].button in OnButtons(buttons, events)
    ensures OnButtons(buttons, events)[events[j].button] == ButtonState(events[j].action, events[j].mods)
    decreases |events|
  {
    if j < |events| - 1 {
      LastButtonEventWins(buttons, events[..|events| - 1], j);
    }
  }

  /** The restart test of each frame: R's cached action, 0 when R has no entry, is non-zero. */
  predicate RestartRequested(keys: map<int, KeyState>) {
    (if KeyR in keys then keys[KeyR] else KeyState(0, 0, 0)).action != 0
  }

  /**
   * Restart follows R's last event: with an R event among the frame's events, restart fires iff
   * the last one's action is non-zero; with none, the cached decision carries over unchanged, so
   * a non-zero action restarts on every following frame.
   */
  lemma {:induction false} RestartFollowsLastR(observed: seq<int>, keys: map<int, KeyState>, events: seq<KeyEvent>)
    requires KeyR in observed
    ensures (forall j :: 0 <= j < |events| ==> events[j].key != KeyR) ==>
              (RestartRequested(OnKeys(observed, keys, events)) <==> RestartRequested(keys))
    ensures forall j :: 0 <= j < |events| && events[j].key == KeyR &&
                        (forall j' :: j < j' < |events| ==> events[j'].key != KeyR) ==>
              (RestartRequested(OnKeys(observed, keys, events)) <==> events[j].action != 0)
  {
    if forall j :: 0 <= j < |events| ==> events[j].key != KeyR {
      UntouchedKey(observed, keys, events, KeyR);
    }
    forall j | 0 <= j < |events| && events[j].key == KeyR && (forall j' :: j < j' < |events| ==> events[j'].key != KeyR)
      ensures RestartRequested(OnKeys(observed, keys, events)) <==> events[j].action != 0
    {
      LastKeyEventWins(observed, keys, events, j);
    }
  }

  // ---------------------------------------------------------------------------------------------
  // Textures (`__configure_textures`)

  /** Total number of textures the scheme's types declare. */
  function TextureCount(scheme: seq<Entry>): nat
    decreases |scheme|
  {
    if scheme == [] then 0 else TextureCount(scheme[..|scheme| - 1]) + |scheme[|scheme| - 1].typ.textures|
  }

  /** The integers `lo, lo + 1, …, hi - 1`. */
  function Range(lo: int, hi: int): (r: seq<int>)
    requires lo <= hi
    ensures |r| == hi - lo && forall i :: 0 <= i < |r| ==> r[i] == lo + i
  {
    seq(hi - lo, i => lo + i)
  }

  /** Every entry holds its own ids: the next ones after those of the entries before it. */
  ghost predicate TexturesNumbered(scheme: seq<Entry>, ids: seq<seq<int>>) {
    |ids| == |scheme| && forall i :: 0 <= i < |scheme| ==> ids[i] == EntryTextureIds(scheme, i)
  }

  /** The ids of entry `i`'s textures: the next ones after those of the entries before it. */
  function EntryTextureIds(scheme: seq<Entry>, i: nat): seq<int>
    requires i < |scheme|
  {
    var base := 1 + TextureCount(scheme[..i]);
    Range(base, base + |scheme[i].typ.textures|)
  }

  /**
   * Texture ids per scheme entry: each entry gets the ids that follow those of the entries
   * before it, one per declared texture; nothing is assigned when no type declares a texture.
   * `TextureIdsConsecutive` shows that together they are 1, 2, …, n.
   */
  method ConfigureTextures(scheme: seq<Entry>) returns (ids: seq<seq<int>>)
    ensures TexturesNumbered(scheme, ids)
    ensures TextureCount(scheme) == 0 ==> forall i :: 0 <= i < |ids| ==> ids[i] == []
  {
    var total := CountTextures(scheme);
    if total == 0 {
      ids := seq(|scheme|, _ => []);
      NoTexturesNoIds(scheme, ids);
    } else {
      ids := NumberTextures(scheme);
    }
  }

  /** The counting loop: the total number of declared textures. */
  method CountTextures(scheme: seq<Entry>) returns (total: nat)
    ensures total == TextureCount(scheme)
  {
    total := 0;
    var i := 0;
    while i < |scheme|
      invariant 0 <= i <= |scheme| && total == TextureCount(scheme[..i])
    {
      TextureCountStep(scheme, i);
      total := total + |scheme[i].typ.textures|;
      i := i + 1;
    }
    assert scheme[..|scheme|] == scheme;
  }

  /** The numbering loop: consecutive ids from 1, entry by entry. */
  method NumberTextures(scheme: seq<Entry>) returns (ids: seq<seq<int>>)
    ensures TexturesNumbered(scheme, ids)
  {
    ids := [];
    var next := 1;
    var i := 0;
    while i < |scheme|
      invariant 0 <= i <= |scheme| && |ids| == i
      invariant next == 1 + TextureCount(scheme[..i])
      invariant forall j :: 0 <= j < i ==> ids[j] == EntryTextureIds(scheme, j)
    {
      var mine := AssignEntry(next, |scheme[i].typ.textures|);
      assert mine == EntryTextureIds(scheme, i);
      TextureCountStep(scheme, i);
      ids := ids + [mine];
      next := next + |mine|;
      i := i + 1;
    }
    assert scheme[..|scheme|] == scheme;
  }

  /** The inner loop of the numbering: `count` ids from `next` on. */
  method AssignEntry(next: int, count: nat) returns (mine: seq<int>)
    ensures mine == Range(next, next + count)
  {
    mine := [];
    var t := 0;
    while t < count
      invariant 0 <= t <= count
      invariant mine == Range(next, next + t)
    {
      mine := mine + [next + t];
      t := t + 1;
    }
  }

  lemma TextureCountStep(scheme: seq<Entry>, i: nat)
    requires i < |scheme|
    ensures TextureCount(scheme[..i + 1]) == TextureCount(scheme[..i]) + |scheme[i].typ.textures|
  {
    assert scheme[..i + 1][..i] == scheme[..i];
  }

  lemma {:induction false} NoTexturesNoIds(scheme: seq<Entry>, ids: seq<seq<int>>)
    requires TextureCount(scheme) == 0
    requires |ids| == |scheme| && forall i :: 0 <= i < |scheme| ==> ids[i] == []
    ensures forall i :: 0 <= i < |scheme| ==> ids[i] == EntryTextureIds(scheme, i)
    decreases |scheme|
  {
    if scheme != [] {
      var n := |scheme| - 1;
      NoTexturesNoIds(scheme[..n], ids[..n]);
      forall i | 0 <= i < |scheme|
        ensures ids[i] == EntryTextureIds(scheme, i)
      {
        if i < n {
          assert scheme[..n][..i] == scheme[..i];
          assert ids[..n][i] == ids[i];
        }
      }
    }
  }

  /**
   * The per-entry ids, read in scheme order, are exactly 1, 2, …, n for n the total number of
   * declared textures: no id is skipped or repeated.
   */
  lemma {:induction false} TextureIdsConsecutive(scheme: seq<Entry>, ids: seq<seq<int>>)
    requires TexturesNumbered(scheme, ids)
    ensures Concat(ids) == Range(1, 1 + TextureCount(scheme))
    decreases |scheme|
  {
    if scheme != [] {
      var n := |scheme| - 1;
      forall i | 0 <= i < n
        ensures ids[..n][i] == EntryTextureIds(scheme[..n], i)
      {
        assert scheme[..n][..i] == scheme[..i];
      }
      TextureIdsConsecutive(scheme[..n], ids[..n]);
      TextureCountStep(scheme, n);
      assert scheme[..n + 1] == scheme;
      RangeSplit(1, 1 + TextureCount(scheme[..n]), 1 + TextureCount(scheme));
    }
  }

  lemma RangeSplit(lo: int, mid: int, hi: int)
    requires lo <= mid <= hi
    ensures Range(lo, mid) + Range(mid, hi) == Range(lo, hi)
  {
  }

  lemma ConcatSnoc<T>(ss: seq<seq<T>>, s: seq<T>)
    ensures Concat(ss + [s]) == Concat(ss) + s
    ensures forall j :: 0 <= j <= |ss| ==> (ss + [s])[..j] == ss[..j]
  {
    assert (ss + [s])[..|ss|] == ss;
  }

  // ---------------------------------------------------------------------------------------------
  // The controller and the restart step

  datatype Controller = Controller(
    scheme: seq<Entry>,
    resolution: Resolution,
    vertices: seq<Vertex>,
    offsets: seq<nat>,
    classOffset: map<ObjectType, nat>,
    observed: seq<int>,
    groups: seq<Group>,
    solids: seq<Instance>,
    keys: map<int, KeyState>,
    buttons: map<int, ButtonState>,
    textureIds: seq<seq<int>>)

  /** The roster is exactly what a (re)start builds from the scheme. */
  ghost predicate FreshRoster(c: Controller, plainHitbox: PlainPlacer) {
    c.groups == ConfigureObjects(c.scheme, c.resolution, plainHitbox) && c.solids == SolidsOf(c.groups)
  }

  /** The constructor: buffer and keys, roster, then textures; both input caches start empty. */
  method Init(scheme: seq<Entry>, resolution: Resolution, plainHitbox: PlainPlacer)
    returns (c: Controller)
    ensures c.scheme == scheme && c.resolution == resolution
    ensures FreshRoster(c, plainHitbox)
    ensures c.keys == map[] && c.buttons == map[]
    ensures BufferConfigured(scheme, c.vertices, c.offsets, c.classOffset, c.observed)
    ensures TexturesNumbered(scheme, c.textureIds)
  {
    var vertices, offsets, classOffset, observed := ConfigureVertexesAndKeys(scheme);
    var groups := ConfigureObjects(scheme, resolution, plainHitbox);
    var ids := ConfigureTextures(scheme);
    c := Controller(scheme, resolution, vertices, offsets, classOffset, observed, groups, SolidsOf(groups), map[], map[], ids);
  }

  /**
   * The restart check of a frame: when R's cached action is non-zero the roster and solid
   * roster are rebuilt from the scheme; the buffer, offsets, observed keys, input caches and
   * texture ids are never touched.
   */
  function CheckRestart(c: Controller, plainHitbox: PlainPlacer): (c': Controller)
    ensures c' == c.(groups := c'.groups, solids := c'.solids)
    ensures RestartRequested(c.keys) ==> FreshRoster(c', plainHitbox)
    ensures !RestartRequested(c.keys) ==> c' == c
  {
    if RestartRequested(c.keys) then
      var groups := ConfigureObjects(c.scheme, c.resolution, plainHitbox);
      c.(groups := groups, solids := SolidsOf(groups))
    else c
  }

  /** Restarting from the initial roster, or restarting twice, yields the same controller. */
  lemma RestartIdempotent(c: Controller, plainHitbox: PlainPlacer)
    ensures FreshRoster(c, plainHitbox) ==> CheckRestart(c, plainHitbox) == c
    ensures CheckRestart(CheckRestart(c, plainHitbox), plainHitbox) == CheckRestart(c, plainHitbox)
  {
  }
}

=== FILE: game_object.dfy ===
/**
 * What every game object shares: its variant, its identity inside the roster, the view of a
 * solid object that collision logic reads, the draw calls issued into the shared vertex buffer,
 * and the input-cache records handed to `logic`.
 */
module GameObject {
  import opened Wrappers
  import opened Geometry

  /** The variants the core distinguishes by `type(item)`. Other variants are opaque. */
  datatype ObjectType =
    | RobotType | FlamesType
    | BoxType | ContainerType | ParedeSageType | GateType
    | RotatorType | FinishType
    | OtherType(name: string)

  /** The variants the robot bounces off: Box, Container, ParedeSage and Gate. */
  predicate IsStructural(t: ObjectType) {
    t == BoxType || t == ContainerType || t == ParedeSageType || t == GateType
  }

  /** Object identity (Python's `is`/`!=` on instances): group index and item index in the roster. */
  datatype InstanceId = InstanceId(group: nat, index: nat)

  /** Strict scheme/item order of identities. */
  predicate IdBefore(a: InstanceId, b: InstanceId) {
    a.group < b.group || (a.group == b.group && a.index < b.index)
  }

  /** What the robot reads of a member of the solid roster: who it is, its variant, its hitbox, its rotation. */
  datatype Solid = Solid(id: InstanceId, kind: ObjectType, hitbox: Hitbox, rotate: real)

  /** The logic pass hands an object the solid roster exactly when the object has a hitbox. */
  predicate GetsRoster(hitbox: Option<Hitbox>) {
    hitbox.Some?
  }

  /** Cached state of an observed key: `{"action", "code", "mods"}`. */
  datatype KeyState = KeyState(action: int, code: int, mods: int)

  /** Cached state of a mouse button: `{"action", "mods"}`. */
  datatype ButtonState = ButtonState(action: int, mods: int)

  datatype Primitive = TriangleFan | TriangleStrip

  /** One `glDrawArrays(mode, first, count)`. */
  datatype DrawCall = DrawCall(mode: Primitive, first: int, count: nat)

  function End(c: DrawCall): int {
    c.first + c.count
  }

  predicate Covers(c: DrawCall, i: int) {
    c.first <= i < End(c)
  }

  /** Some call reads index `i`. */
  predicate CoveredBy(calls: seq<DrawCall>, i: int) {
    exists k :: 0 <= k < |calls| && Covers(calls[k], i)
  }

  /** The calls are laid end to end, the first starting at `lo` and the last ending at `hi`. */
  predicate Tiles(calls: seq<DrawCall>, lo: int, hi: int) {
    if |calls| == 0 then lo == hi
    else
      && calls[0].first == lo
      && End(calls[|calls| - 1]) == hi
      && forall k :: 0 <= k < |calls| - 1 ==> End(calls[k]) == calls[k + 1].first
  }

  /**
   * Calls that tile `[lo, hi)` read only indices inside it, and every index in it is read by
   * exactly one call: no gap, no overlap.
   */
  lemma {:induction false} TilesPartition(calls: seq<DrawCall>, lo: int, hi: int)
    requires Tiles(calls, lo, hi)
    ensures lo <= hi
    ensures forall k :: 0 <= k < |calls| ==> lo <= calls[k].first && End(calls[k]) <= hi
    ensures forall i :: lo <= i < hi ==> CoveredBy(calls, i)
    ensures forall i, k1, k2 ::
              0 <= k1 < |calls| && 0 <= k2 < |calls| && Covers(calls[k1], i) && Covers(calls[k2], i)
              ==> k1 == k2
    decreases |calls|
  {
    if |calls| > 1 {
      var rest := calls[1..];
      assert Tiles(rest, End(calls[0]), hi) by {
        forall k | 0 <= k < |rest| - 1
          ensures End(rest[k]) == rest[k + 1].first
        {
          assert rest[k] == calls[k + 1] && rest[k + 1] == calls[k + 2];
        }
      }
      TilesPartition(rest, End(calls[0]), hi);
      forall i | lo <= i < hi
        ensures CoveredBy(calls, i)
      {
        if i < End(calls[0]) {
          assert Covers(calls[0], i);
        } else {
          assert CoveredBy(rest, i);
          var k :| 0 <= k < |rest| && Covers(rest[k], i);
          assert Covers(calls[k + 1], i);
        }
      }
      forall i, k1, k2 |
        0 <= k1 < |calls| && 0 <= k2 < |calls| && Covers(calls[k1], i) && Covers(calls[k2], i)
        ensures k1 == k2
      {
        if k1 > 0 && k2 > 0 {
          assert Covers(rest[k1 - 1], i) && Covers(rest[k2 - 1], i);
        }
      }
    } else if |calls| == 1 {
      forall i | lo <= i < hi
        ensures CoveredBy(calls, i)
      {
        assert Covers(calls[0], i);
      }
    }
  }
}

=== FILE: geometry.dfy ===
/**
 * Planar vectors, axes and the axis-aligned hitbox record shared by every game object.
 */
module Geometry {
  import opened Wrappers

  /** The two movement axes; the robot indexes its position and direction by 0 (X) and 1 (Y). */
  datatype Axis = X | Y {
    function Other(): (o: Axis)
      ensures o != this
    {
      match this
      case X => Y
      case Y => X
    }
  }

  /** A 2-vector of reals (the source keeps these as two-element lists or numpy arrays). */
  datatype Vec2 = Vec2(x: real, y: real) {

    /** Component on `a`, as `v[0]` / `v[1]` in the source. */
    function Get(a: Axis): real {
      match a
      case X => x
      case Y => y
    }

    /** The vector with the component on `a` replaced by `v` (in-place item assignment in the source). */
    function With(a: Axis, v: real): (r: Vec2)
      ensures r.Get(a) == v
      ensures r.Get(a.Other()) == Get(a.Other())
    {
      match a
      case X => Vec2(v, y)
      case Y => Vec2(x, v)
    }
  }

  /** The window size in pixels handed to each object at construction. */
  datatype Resolution = Resolution(width: int, height: int)

  /** One vertex of the shared buffer: three coordinates. */
  datatype Vertex = Vertex(x: real, y: real, z: real)

  /** The four hitbox values `[x, y, width, height]`. */
  datatype Rect = Rect(x: real, y: real, w: real, h: real)

  /** A hitbox: its kind tag (always "box" here) and its current values. */
  datatype Hitbox = Hitbox(kind: string, rect: Rect)

  const BoxKind: string := "box"

  /**
   * The box that the Robot and Flames variants compute in `configure_hitbox`: `scale` times the
   * object's size, placed so that its centre is the object's position.
   */
  function CenteredBox(position: Vec2, size: Vec2, scale: real): (r: Rect)
    ensures r.x + r.w / 2.0 == position.x && r.y + r.h / 2.0 == position.y
    ensures r.w == scale * size.x && r.h == scale * size.y
  {
    Rect(position.x - scale * size.x / 2.0, position.y - scale * size.y / 2.0,
         scale * size.x, scale * size.y)
  }

  /**
   * The `configure_hitbox` lifecycle: with no hitbox yet, a new "box" hitbox is created;
   * otherwise the existing one keeps its identity (here: its kind) and only its values change.
   */
  function PlaceHitbox(current: Option<Hitbox>, values: Rect): (r: Option<Hitbox>)
    ensures r.Some? && r.value.rect == values
    ensures current.None? ==> r.value.kind == BoxKind
    ensures current.Some? ==> r.value.kind == current.value.kind
  {
    match current
    case None => Some(Hitbox(BoxKind, values))
    case Some(h) => Some(h.(rect := values))
  }
}

=== FILE: robot_object.dfy ===
/**
 * The robot: per-frame state machine (trigger scan, then an X move, then a Y move; or, once
 * dead, a spin-and-shrink frame), hitbox placement, vertex layout and draw sub-ranges.
 */
module RobotObject {
  import opened Wrappers
  import opened Geometry
  import opened GameObject

  /**
   * Code the robot calls but that is not part of this model, taken as given functions:
   * `collide(a, b)` is `a.check_collision(b)`, `windowCollide` is `hitbox_window_collider`,
   * `cosDeg`/`sinDeg` are cos/sin of an angle given in degrees, and `acosDeg`/`asinDeg` are
   * arccos/arcsin with the result converted to degrees.
   */
  datatype Collaborators = Collaborators(
    collide: (Hitbox, Hitbox) -> bool,
    windowCollide: (Vec2, Vec2, Resolution) -> bool,
    cosDeg: real -> real,
    sinDeg: real -> real,
    acosDeg: real -> real,
    asinDeg: real -> real)

  /** Vertices of each generated ring (`num_vertices`). */
  const NumVertices: nat := 10
  /** Fraction of the size covered by the hitbox. */
  const HitboxScale: real := 0.857
  /** Initial translation per frame (`6 * 0.1`). */
  const InitialSpeed: real := 0.6
  /** Rotation added per dead frame. */
  const SpinStep: real := 0.2
  /** Size lost per dead frame on each axis. */
  const ShrinkStep: real := 0.03

  /** The robot's state: the common object fields plus speed, direction and the `dead` flag. */
  datatype Robot = Robot(
    position: Vec2,
    size: Vec2,
    rotate: real,
    resolution: Resolution,
    hitbox: Option<Hitbox>,
    speed: real,
    dir: Vec2,
    dead: bool)

  /** A new robot: no hitbox yet, speed 0.6, heading up (0, 1), alive. */
  function New(position: Vec2, size: Vec2, rotate: real, resolution: Resolution): (r: Robot)
    ensures r.position == position && r.size == size && r.rotate == rotate && r.resolution == resolution
    ensures r.hitbox.None? && !r.dead
    ensures r.speed == InitialSpeed && r.dir == Vec2(0.0, 1.0)
  {
    Robot(position, size, rotate, resolution, None, InitialSpeed, Vec2(0.0, 1.0), false)
  }

  /** `configure_hitbox`: a box 0.857 times the size, centred on the position, created or updated. */
  function ConfigureHitbox(r: Robot): (r': Robot)
    ensures r'.hitbox.Some?
    ensures r'.hitbox.value.rect.x + r'.hitbox.value.rect.w / 2.0 == r.position.x
    ensures r'.hitbox.value.rect.y + r'.hitbox.value.rect.h / 2.0 == r.position.y
    ensures r'.hitbox.value.rect.w == HitboxScale * r.size.x
    ensures r'.hitbox.value.rect.h == HitboxScale * r.size.y
    ensures r.hitbox.None? ==> r'.hitbox.value.kind == BoxKind
    ensures r.hitbox.Some? ==> r'.hitbox.value.kind == r.hitbox.value.kind
    ensures r' == r.(hitbox := r'.hitbox)
  {
    r.(hitbox := PlaceHitbox(r.hitbox, CenteredBox(r.position, r.size, HitboxScale)))
  }

  // ---------------------------------------------------------------------------------------------
  // Trigger scan (`__event_trigger_logic`)

  /** The heading a rotator imposes: the unit vector at the rotator's angle. */
  function RotatorHeading(item: Solid, env: Collaborators): Vec2 {
    Vec2(env.cosDeg(item.rotate), env.sinDeg(item.rotate))
  }

  /** `item` is another object whose hitbox the robot's hitbox `h` collides with. */
  predicate Hits(h: Hitbox, self: InstanceId, item: Solid, env: Collaborators) {
    item.id != self && env.collide(h, item.hitbox)
  }

  /** An overlapping rotator. */
  predicate Turns(h: Hitbox, self: InstanceId, item: Solid, env: Collaborators) {
    item.kind == RotatorType && Hits(h, self, item, env)
  }

  /** An overlapping flame pool or finish: the scan ends there. */
  predicate Stops(h: Hitbox, self: InstanceId, item: Solid, env: Collaborators) {
    (item.kind == FlamesType || item.kind == FinishType) && Hits(h, self, item, env)
  }

  /**
   * Scans the roster in order, skipping the robot itself: an overlapping rotator overrides the
   * direction and the scan goes on; overlapping flames kill the robot and end the scan; an
   * overlapping finish sets the speed to 0 and ends the scan. Only direction, speed and `dead`
   * can change, `dead` only to true and speed only to 0.
   */
  function TriggerScan(r: Robot, self: InstanceId, roster: seq<Solid>, env: Collaborators): (r': Robot)
    requires r.hitbox.Some? || roster == []
    ensures r' == r.(dir := r'.dir, speed := r'.speed, dead := r'.dead)
    ensures r.dead ==> r'.dead
    ensures r'.speed == r.speed || r'.speed == 0.0
    decreases |roster|
  {
    if roster == [] then r
    else
      var item := roster[0];
      var h := r.hitbox.value;
      if item.id == self then TriggerScan(r, self, roster[1..], env)
      else if item.kind == RotatorType && env.collide(h, item.hitbox) then
        TriggerScan(r.(dir := RotatorHeading(item, env)), self, roster[1..], env)
      else if item.kind == FlamesType && env.collide(h, item.hitbox) then r.(dead := true)
      else if item.kind == FinishType && env.collide(h, item.hitbox) then r.(speed := 0.0)
      else TriggerScan(r, self, roster[1..], env)
  }

  /**
   * `n` is where the trigger scan ends: no flames or finish overlaps before it, and one does at
   * `n` unless `n` is the end of the roster.
   */
  ghost predicate ScanEndsAt(h: Hitbox, self: InstanceId, roster: seq<Solid>, env: Collaborators, n: nat) {
    && n <= |roster|
    && (forall j :: 0 <= j < n ==> !Stops(h, self, roster[j], env))
    && (n < |roster| ==> Stops(h, self, roster[n], env))
  }

  /** The scan's effect on `dead` and speed is decided by the first stopping item alone. */
  lemma {:induction false} TriggerScanOutcome(r: Robot, self: InstanceId, roster: seq<Solid>, env: Collaborators, n: nat)
    requires r.hitbox.Some?
    requires ScanEndsAt(r.hitbox.value, self, roster, env, n)
    ensures n == |roster| ==>
              TriggerScan(r, self, roster, env).dead == r.dead && TriggerScan(r, self, roster, env).speed == r.speed
    ensures n < |roster| && roster[n].kind == FlamesType ==>
              TriggerScan(r, self, roster, env).dead && TriggerScan(r, self, roster, env).speed == r.speed
    ensures n < |roster| && roster[n].kind == FinishType ==>
              TriggerScan(r, self, roster, env).dead == r.dead && TriggerScan(r, self, roster, env).speed == 0.0
    ensures (forall j :: 0 <= j < n ==> !Turns(r.hitbox.value, self, roster[j], env)) ==>
              TriggerScan(r, self, roster, env).dir == r.dir
    decreases |roster|
  {
    if roster != [] {
      var h := r.hitbox.value;
      var item := roster[0];
      if !Stops(h, self, item, env) {
        var r1 := if Turns(h, self, item, env) then r.(dir := RotatorHeading(item, env)) else r;
        assert TriggerScan(r, self, roster, env) == TriggerScan(r1, self, roster[1..], env);
        assert ScanEndsAt(h, self, roster[1..], env, n - 1);
        TriggerScanOutcome(r1, self, roster[1..], env, n - 1);
        if forall j :: 0 <= j < n ==> !Turns(h, self, roster[j], env) {
          assert !Turns(h, self, roster[0], env);
          assert forall j :: 0 <= j < n - 1 ==> !Turns(h, self, roster[1..][j], env);
        }
      }
    }
  }

  /** The last rotator overlapped before the scan ends decides the direction. */
  lemma {:induction false} LastRotatorWins(r: Robot, self: InstanceId, roster: seq<Solid>, env: Collaborators, n: nat, k: nat)
    requires r.hitbox.Some?
    requires ScanEndsAt(r.hitbox.value, self, roster, env, n)
    requires k < n && Turns(r.hitbox.value, self, roster[k], env)
    requires forall j :: k < j < n ==> !Turns(r.hitbox.value, self, roster[j], env)
    ensures TriggerScan(r, self, roster, env).dir == RotatorHeading(roster[k], env)
    decreases k
  {
    var h := r.hitbox.value;
    var item := roster[0];
    var r1 := if Turns(h, self, item, env) then r.(dir := RotatorHeading(item, env)) else r;
    assert TriggerScan(r, self, roster, env) == TriggerScan(r1, self, roster[1..], env);
    assert ScanEndsAt(h, self, roster[1..], env, n - 1);
    if k == 0 {
      assert forall j :: 0 <= j < n - 1 ==> !Turns(h, self, roster[1..][j], env);
      TriggerScanOutcome(r1, self, roster[1..], env, n - 1);
    } else {
      LastRotatorWins(r1, self, roster[1..], env, n - 1, k - 1);
    }
  }

  // ---------------------------------------------------------------------------------------------
  // Axis move (`__collision_logic`)

  /** A structural object, other than the robot, that the hitbox `h` collides with. */
  predicate Obstructs(h: Hitbox, self: InstanceId, item: Solid, env: Collaborators) {
    IsStructural(item.kind) && Hits(h, self, item, env)
  }

  /**
   * The roster loop of `__collision_logic`, entered with the window collision already OR-ed into
   * `collision`: it reverts at the first item where the accumulated flag is set. So it reverts
   * exactly when the roster is non-empty and either the window or some obstacle collides.
   */
  function Blocked(h: Hitbox, self: InstanceId, roster: seq<Solid>, collision: bool, env: Collaborators): (b: bool)
    ensures b <==> |roster| > 0 && (collision || exists i :: 0 <= i < |roster| && Obstructs(h, self, roster[i], env))
    decreases |roster|
  {
    if roster == [] then false
    else
      var c := collision || (roster[0].id != self && IsStructural(roster[0].kind) && env.collide(h, roster[0].hitbox));
      if c then true
      else
        assert forall i :: 1 <= i < |roster| ==> roster[i] == roster[1..][i - 1];
        Blocked(h, self, roster[1..], c, env)
  }

  /** The position after tentatively advancing on `axis` by speed times direction. */
  function Tentative(r: Robot, axis: Axis): Vec2 {
    r.position.With(axis, r.position.Get(axis) + r.speed * r.dir.Get(axis))
  }

  /** The hitbox recomputed at the tentative position. */
  function TentativeHitbox(r: Robot, axis: Axis): Hitbox {
    PlaceHitbox(r.hitbox, CenteredBox(Tentative(r, axis), r.size, HitboxScale)).value
  }

  /** The move on `axis` is undone: the roster is non-empty and the window or an obstacle collides. */
  ghost predicate MoveBlocked(r: Robot, self: InstanceId, roster: seq<Solid>, axis: Axis, env: Collaborators) {
    && |roster| > 0
    && (|| env.windowCollide(Tentative(r, axis), r.size, r.resolution)
        || exists i :: 0 <= i < |roster| && Obstructs(TentativeHitbox(r, axis), self, roster[i], env))
  }

  /**
   * One axis of movement: advance, recompute the hitbox, and on a collision put the coordinate
   * back and reverse that axis's direction. The other axis is untouched, and the hitbox stays
   * where the tentative move put it even when the move is undone.
   */
  function AxisMove(r: Robot, self: InstanceId, roster: seq<Solid>, axis: Axis, env: Collaborators): (r': Robot)
    ensures r'.hitbox == Some(TentativeHitbox(r, axis))
    ensures MoveBlocked(r, self, roster, axis, env) ==>
              r'.position == r.position && r'.dir.Get(axis) == -r.dir.Get(axis)
    ensures !MoveBlocked(r, self, roster, axis, env) ==>
              r'.position == Tentative(r, axis) && r'.dir == r.dir
    ensures r'.position.Get(axis.Other()) == r.position.Get(axis.Other())
    ensures r'.dir.Get(axis.Other()) == r.dir.Get(axis.Other())
    ensures r' == r.(position := r'.position, dir := r'.dir, hitbox := r'.hitbox)
  {
    var last := r.position.Get(axis);
    var moved := ConfigureHitbox(r.(position := Tentative(r, axis)));
    var collision := env.windowCollide(moved.position, moved.size, moved.resolution);
    if Blocked(moved.hitbox.value, self, roster, collision, env) then
      var p := moved.position.With(axis, last);
      assert p == r.position by {
        assert p.Get(axis) == r.position.Get(axis) && p.Get(axis.Other()) == r.position.Get(axis.Other());
        if axis == X {} else {}
      }
      moved.(position := p, dir := moved.dir.With(axis, -1.0 * moved.dir.Get(axis)))
    else
      moved
  }

  // ---------------------------------------------------------------------------------------------
  // The frame (`logic`)

  /** One dead frame's shrink of a size component: 0.03 while it is positive, not clamped at 0. */
  function Shrink(s: real): (r: real)
    ensures r <= s
    ensures s <= 0.0 ==> r == s
    ensures s > 0.0 ==> r == s - ShrinkStep
    ensures s > -ShrinkStep ==> r > -ShrinkStep
  {
    s - (if s > 0.0 then ShrinkStep else 0.0)
  }

  /** The rotation recomputed from the direction, in degrees, from its arccos and arcsin. */
  function Facing(dir: Vec2, env: Collaborators): real {
    var degX := env.acosDeg(dir.x);
    var degY := env.asinDeg(dir.y);
    if degY >= 0.0 then degX - 90.0 else -degX - 90.0
  }

  /**
   * One frame of `logic`. Dead: spin by 0.2 and shrink, nothing else. Alive: trigger scan, then
   * the X move, then the Y move (with the state the scan left, even a just-killed robot), then
   * the rotation is recomputed from the direction.
   */
  function Logic(r: Robot, self: InstanceId, roster: seq<Solid>, env: Collaborators): (r': Robot)
    requires r.hitbox.Some? || roster == []
    ensures r.dead ==> r'.dead
    ensures r.dead ==> r' == r.(rotate := r.rotate + SpinStep, size := Vec2(Shrink(r.size.x), Shrink(r.size.y)))
    ensures !r.dead ==> r'.hitbox.Some? && r'.size == r.size
    ensures !r.dead ==> r'.dead == TriggerScan(r, self, roster, env).dead &&
                        r'.speed == TriggerScan(r, self, roster, env).speed
    ensures !r.dead ==> r'.position.x == AxisMove(TriggerScan(r, self, roster, env), self, roster, X, env).position.x
    ensures !r.dead ==>
              r'.hitbox == Some(TentativeHitbox(AxisMove(TriggerScan(r, self, roster, env), self, roster, X, env), Y))
    ensures !r.dead ==>
              var a := AxisMove(TriggerScan(r, self, roster, env), self, roster, X, env);
              r'.position == AxisMove(a, self, roster, Y, env).position && r'.dir == AxisMove(a, self, roster, Y, env).dir
    ensures !r.dead ==> r'.rotate == Facing(r'.dir, env)
    ensures r'.resolution == r.resolution
    ensures r'.speed == r.speed || r'.speed == 0.0
    ensures r.speed == 0.0 ==> r'.position == r.position && r'.speed == 0.0
  {
    if r.dead then
      r.(rotate := r.rotate + SpinStep, size := Vec2(Shrink(r.size.x), Shrink(r.size.y)))
    else
      var t := TriggerScan(r, self, roster, env);
      var a := AxisMove(t, self, roster, X, env);
      var b := AxisMove(a, self, roster, Y, env);
      b.(rotate := Facing(b.dir, env))
  }

  /** The roster a frame hands the robot: the solid roster when it has a hitbox, nothing otherwise. */
  function FrameRoster(r: Robot, roster: seq<Solid>): (given: seq<Solid>)
    ensures GetsRoster(r.hitbox) ==> given == roster
    ensures !GetsRoster(r.hitbox) ==> given == []
    ensures given != [] ==> r.hitbox.Some?
  {
    if GetsRoster(r.hitbox) then roster else []
  }

  /** Successive frames, one roster per frame, as the game loop drives them. */
  function Run(r: Robot, self: InstanceId, rosters: seq<seq<Solid>>, env: Collaborators): Robot
    decreases |rosters|
  {
    if rosters == [] then r
    else Run(Logic(r, self, FrameRoster(r, rosters[0]), env), self, rosters[1..], env)
  }

  /**
   * Death is terminal: from a dead state no frame revives the robot or moves it; each frame adds
   * 0.2 to the rotation, and each size component only decreases, stops once it is at most 0, and
   * starting above -0.03 stays above -0.03.
   */
  lemma {:induction false} DeathIsTerminal(r: Robot, self: InstanceId, rosters: seq<seq<Solid>>, env: Collaborators)
    requires r.dead
    ensures Run(r, self, rosters, env).dead
    ensures Run(r, self, rosters, env) ==
              r.(rotate := Run(r, self, rosters, env).rotate, size := Run(r, self, rosters, env).size)
    ensures Run(r, self, rosters, env).rotate == r.rotate + SpinStep * |rosters| as real
    ensures Run(r, self, rosters, env).size.x <= r.size.x && Run(r, self, rosters, env).size.y <= r.size.y
    ensures r.size.x <= 0.0 ==> Run(r, self, rosters, env).size.x == r.size.x
    ensures r.size.y <= 0.0 ==> Run(r, self, rosters, env).size.y == r.size.y
    ensures r.size.x > -ShrinkStep ==> Run(r, self, rosters, env).size.x > -ShrinkStep
    ensures r.size.y > -ShrinkStep ==> Run(r, self, rosters, env).size.y > -ShrinkStep
    decreases |rosters|
  {
    if rosters != [] {
      var r1 := Logic(r, self, FrameRoster(r, rosters[0]), env);
      DeathIsTerminal(r1, self, rosters[1..], env);
    }
  }

  /** Speed starts at 0.6 and can only drop to 0; once 0 the robot never moves again, dead or alive. */
  lemma {:induction false} SpeedNeverIncreases(r: Robot, self: InstanceId, rosters: seq<seq<Solid>>, env: Collaborators)
    requires r.speed == InitialSpeed || r.speed == 0.0
    ensures Run(r, self, rosters, env).speed == InitialSpeed || Run(r, self, rosters, env).speed == 0.0
    ensures Run(r, self, rosters, env).speed <= r.speed
    ensures r.speed == 0.0 ==> Run(r, self, rosters, env).position == r.position
    decreases |rosters|
  {
    if rosters != [] {
      var r1 := Logic(r, self, FrameRoster(r, rosters[0]), env);
      SpeedNeverIncreases(r1, self, rosters[1..], env);
    }
  }

  /**
   * A rotator overlapped this frame steers this frame's movement: triggers run before the moves.
   * Scenario: only a rotator in the roster and no window collision.
   */
  lemma RotatorSteersSameFrame(r: Robot, self: InstanceId, item: Solid, env: Collaborators)
    requires !r.dead && r.hitbox.Some?
    requires Turns(r.hitbox.value, self, item, env)
    requires forall p, s, res :: !env.windowCollide(p, s, res)
    ensures Logic(r, self, [item], env).dir == RotatorHeading(item, env)
    ensures Logic(r, self, [item], env).position ==
              Vec2(r.position.x + r.speed * env.cosDeg(item.rotate), r.position.y + r.speed * env.sinDeg(item.rotate))
  {
    assert [item][1..] == [];
    var t := TriggerScan(r, self, [item], env);
    assert t == TriggerScan(r.(dir := RotatorHeading(item, env)), self, [], env);
    assert !MoveBlocked(t, self, [item], X, env);
    var a := AxisMove(t, self, [item], X, env);
    assert !MoveBlocked(a, self, [item], Y, env);
  }

  /** The frame that kills the robot still moves it: the flag is read only at the start of a frame. */
  lemma DeathFrameStillMoves(r: Robot, self: InstanceId, item: Solid, env: Collaborators)
    requires !r.dead && r.hitbox.Some?
    requires item.kind == FlamesType && Hits(r.hitbox.value, self, item, env)
    requires forall p, s, res :: !env.windowCollide(p, s, res)
    ensures Logic(r, self, [item], env).dead
    ensures Logic(r, self, [item], env).position ==
              Vec2(r.position.x + r.speed * r.dir.x, r.position.y + r.speed * r.dir.y)
  {
    var t := TriggerScan(r, self, [item], env);
    assert t == r.(dead := true);
    assert !MoveBlocked(t, self, [item], X, env);
    var a := AxisMove(t, self, [item], X, env);
    assert !MoveBlocked(a, self, [item], Y, env);
  }

  /**
   * A new robot at (0, 0) heading up with nothing in its roster advances to (0, 0.6): with an
   * empty roster no revert happens, whatever the window collider says.
   */
  lemma UnobstructedFirstFrame(self: InstanceId, size: Vec2, rotate: real, env: Collaborators)
    ensures Logic(New(Vec2(0.0, 0.0), size, rotate, Resolution(600, 600)), self, [], env).position == Vec2(0.0, 0.6)
  {
  }

  // ---------------------------------------------------------------------------------------------
  // Vertex layout (`get_vertices`) and draw sub-ranges (`draw`)

  /** A run of the vertex list: a literal table, or a ring generated from cos/sin. */
  datatype Segment = Literal(count: nat) | Ring(count: nat)

  function SegmentCount(s: Segment): nat {
    match s
    case Literal(n) => n
    case Ring(n) => n
  }

  /** The order in which `get_vertices` builds the list: 29 literal, two rings, 16 literal, two rings. */
  const Layout: seq<Segment> :=
    [Literal(29), Ring(NumVertices), Ring(NumVertices), Literal(16), Ring(NumVertices), Ring(NumVertices)]

  function LayoutSize(segs: seq<Segment>): nat
    decreases |segs|
  {
    if segs == [] then 0 else LayoutSize(segs[..|segs| - 1]) + SegmentCount(segs[|segs| - 1])
  }

  /** Index of the first vertex of segment `k`. */
  function SegmentStart(k: nat): nat
    requires k <= |Layout|
  {
    LayoutSize(Layout[..k])
  }

  /** The segment starts: the generated rings begin at 29, 39, 65 and 75, and the list holds 85. */
  lemma LayoutStarts()
    ensures SegmentStart(1) == 29 && SegmentStart(2) == 39 && SegmentStart(3) == 49
    ensures SegmentStart(4) == 65 && SegmentStart(5) == 75 && SegmentStart(6) == 85
    ensures LayoutSize(Layout) == 85
  {
    assert Layout[..0] == [];
    assert LayoutSize(Layout[..1]) == 29 by { assert Layout[..1][..0] == []; }
    assert LayoutSize(Layout[..2]) == 39 by { assert Layout[..2][..1] == Layout[..1]; }
    assert LayoutSize(Layout[..3]) == 49 by { assert Layout[..3][..2] == Layout[..2]; }
    assert LayoutSize(Layout[..4]) == 65 by { assert Layout[..4][..3] == Layout[..3]; }
    assert LayoutSize(Layout[..5]) == 75 by { assert Layout[..5][..4] == Layout[..4]; }
    assert LayoutSize(Layout[..6]) == 85 by { assert Layout[..6][..5] == Layout[..5]; }
    assert Layout[..6] == Layout;
  }

  /**
   * `get_vertices`: the list is rebuilt from scratch on every call (earlier contents are
   * dropped), holds one vertex per layout slot and lies in the plane z = 0. The planar
   * coordinates of slot `i` are `planar(i)`.
   */
  function GetVertices(planar: nat -> (real, real)): (vs: seq<Vertex>)
    ensures |vs| == LayoutSize(Layout) == 85
    ensures forall i :: 0 <= i < |vs| ==> vs[i].z == 0.0
  {
    LayoutStarts();
    seq(LayoutSize(Layout), i requires 0 <= i => Vertex(planar(i).0, planar(i).1, 0.0))
  }

  function Fan(first: int, count: nat): DrawCall {
    DrawCall(TriangleFan, first, count)
  }

  function Strip(first: int, count: nat): DrawCall {
    DrawCall(TriangleStrip, first, count)
  }

  /** The thirteen `glDrawArrays` calls of `draw`, relative to the class's buffer offset. */
  function Draw(offset: int): (calls: seq<DrawCall>)
    ensures |calls| == 13
    ensures Tiles(calls, offset, offset + LayoutSize(Layout))
  {
    LayoutStarts();
    [ Fan(offset + 0, 7), Fan(offset + 7, 6), Fan(offset + 13, 5), Fan(offset + 18, 5), Fan(offset + 23, 6),
      Fan(offset + 29, NumVertices), Fan(offset + 29 + NumVertices, NumVertices),
      Strip(offset + 29 + 2 * NumVertices, 4), Strip(offset + 33 + 2 * NumVertices, 4),
      Strip(offset + 37 + 2 * NumVertices, 4), Strip(offset + 41 + 2 * NumVertices, 4),
      Fan(offset + 45 + 2 * NumVertices, NumVertices), Fan(offset + 45 + 3 * NumVertices, NumVertices) ]
  }

  /**
   * The draw calls follow the vertex layout: five fans tile the first literal table, one fan
   * covers each generated ring exactly, and four strips tile the second literal table. Hence
   * every vertex of the class's region is drawn exactly once and nothing outside it is read.
   */
  lemma DrawMatchesLayout(offset: int)
    ensures Tiles(Draw(offset)[..5], offset + SegmentStart(0), offset + SegmentStart(1))
    ensures Draw(offset)[5] == Fan(offset + SegmentStart(1), SegmentCount(Layout[1]))
    ensures Draw(offset)[6] == Fan(offset + SegmentStart(2), SegmentCount(Layout[2]))
    ensures Tiles(Draw(offset)[7..11], offset + SegmentStart(3), offset + SegmentStart(4))
    ensures Draw(offset)[11] == Fan(offset + SegmentStart(4), SegmentCount(Layout[4]))
    ensures Draw(offset)[12] == Fan(offset + SegmentStart(5), SegmentCount(Layout[5]))
    ensures forall i :: offset <= i < offset + |GetVertices(_ => (0.0, 0.0))| ==> CoveredBy(Draw(offset), i)
    ensures forall k :: 0 <= k < 13 ==>
              offset <= Draw(offset)[k].first && End(Draw(offset)[k]) <= offset + LayoutSize(Layout)
  {
    LayoutStarts();
    TilesPartition(Draw(offset), offset, offset + LayoutSize(Layout));
  }
}

=== FILE: wrappers.dfy ===
/** The optional value used wherever the game keeps a Python `None`. */
module Wrappers {

  /** `None` stands for Python's `None`; `Some(v)` for a present value. */
  datatype Option<+T> = None | Some(value: T)
}
